=== FILE: README.md ===
# OneWare package lifecycle, hotkey file, list-box setting and module catalogs in Dafny

This project models four pieces of OneWare Studio and proves properties about them:

- **Tool-package lifecycle (`PackageModel`).** The package status is derived from the last catalog version and the installed version, with a sticky `NeedRestart`. Download targets are matched to the host platform, falling back to `"all"`. The Download, Remove and Update transitions each end in defined ways. The progress callback turns indeterminate once progress reaches 1. Version strings are read the way .NET's `System.Version.TryParse` reads them and compared component by component.
- **Hotkey file (`KeyConfigSerializer`).** Saving writes a record for every command whose active gesture was changed from its default. Loading applies the records to the commands by name.
- **List-box setting (`ListBoxSettingViewModel`).** Adding, editing and removing items, guarded by the selected index.
- **Module catalogs (`ModuleCatalog`, `AggregateModuleCatalog`).** Append-only, ordered registries of module type tokens.

Each operation is a pure function over immutable datatypes. Every effect on the outside world is a parameter describing how that effect turned out:

- the archive fetch, the permission fix-up, and the `Install` hook with the status it may assign (`DownloadEffects`);
- `PrepareRemoveAsync`, the folder check, the folder deletion, and the `Uninstall` hook with the status it may assign (`RemoveEffects`);
- the compatibility check (`CompatibilityReport`);
- the outcome of reading the hotkey file (`Document`);
- the answer of the input dialog (`Option<string>`).

An exception that the C# code does not catch is modelled as the `Faulted` completion. Because every operation returns a new value, an operation that only reads, such as the aggregate's `GetModules`, cannot change any catalog.

Files:

| file | module | models |
|---|---|---|
| `wrappers.dfy` | `Wrappers` | `Option` |
| `versions.dfy` | `Versions` | `System.Version` parse, format and order |
| `packages.dfy` | `Packages` | catalog records, status derivation, target selection, archive URL |
| `package_model.dfy` | `PackageLifecycle` | the `PackageModel` state and its transitions |
| `package_fixtures.dfy` | `PackageFixtures` | the clangd and OSS CAD Suite literals and scenarios on them |
| `key_config.dfy` | `KeyConfig` | hotkey save, load and round trip |
| `list_box_setting.dfy` | `ListBoxSetting` | add, edit, remove on the list-box setting |
| `module_catalog.dfy` | `ModuleCatalogs` | the module catalog |
| `aggregate_module_catalog.dfy` | `AggregateModuleCatalogs` | the aggregate catalog |

Behaviour worth noting, where the code does something a reader of its names and comments might not expect:

- **Remove is not idempotent.** The target lookup dereferences the installed version before anything else happens. So a second Remove, after the first has cleared the installed version, faults (`RemoveTwiceFaults`).
- **A failed download reports `Available` even with a version installed.** The installed version is kept, so the status no longer matches the derived one (`ClangdFailureLosesStatus`, `DownloadFailureConsistency`).
- **A failed download does not reset `Progress`.** The last reported value stays.
- **A successful download does not necessarily end `Installed`.** It recomputes the status from the catalog. Installing a version older than the last catalog entry ends `UpdateAvailable` (`ClangdDowngrade`). A version string that does not parse ends `Available` or `Unavailable`.
- **The hooks' status writes are not treated alike.** The `Install` hook runs before the installed version is stored, so the recomputation overwrites any status it assigns except `NeedRestart`. The `Uninstall` hook runs after the installed version is cleared, so whatever status it assigns is final, and it can break the status invariant (`RemoveHookDecides`).
- **A fetch that throws skips resetting `IsIndeterminate`.** It jumps to the catch block before that reset.

## Model

| member | source | states |
|---|---|---|
| `Versions.ParseComponent` | src/OneWare.Essentials/Models/PackageModel.cs:246-247 | a version component that parses is a non-negative 32-bit `int` |
| `Versions.DigitsWithTrailer` | src/OneWare.Essentials/Models/PackageModel.cs:246-247 | a digit run followed by white space or NULs parses like the run alone, and fails when the value does not fit in an `int` |
| `Versions.BlankPrefix` | src/OneWare.Essentials/Models/PackageModel.cs:246-247 | leading white space before a component changes nothing |
| `Versions.PlusPrefix` | src/OneWare.Essentials/Models/PackageModel.cs:246-247 | a `+` sign before a component changes nothing |
| `Versions.MinusPrefix` | src/OneWare.Essentials/Models/PackageModel.cs:246-247 | a `-` sign is accepted only when the rest reads as zero |
| `Versions.PaddedDigits` | src/OneWare.Essentials/Models/PackageModel.cs:246-247 | around a digit run, a blank, a `+` or a trailer of white space and NULs is ignored, and `-` is accepted only on zero |
| `Versions.DigitsParse` | src/OneWare.Essentials/Models/PackageModel.cs:246-247 | a plain run of digits, leading zeros included, parses to its decimal value when it fits in an `int` |
| `Versions.DecimalRoundTrip` | src/OneWare.Essentials/Models/PackageModel.cs:246-247 | the decimal spelling of a number reads back as that number |
| `Versions.DecimalParses` | src/OneWare.Essentials/Models/PackageModel.cs:246-247 | the decimal spelling of any `int`-sized number parses as a component |
| `Versions.SplitOnDot` | src/OneWare.Essentials/Models/PackageModel.cs:246-247 | a version string splits into at least one piece, and no piece contains a dot |
| `Versions.SplitDotted` | src/OneWare.Essentials/Models/PackageModel.cs:246-247 | splitting a dot-free piece, a dot and a rest gives that piece followed by the pieces of the rest |
| `Versions.TryParse` | src/OneWare.Essentials/Models/PackageModel.cs:246-247 | a parsed version is well formed (components in range, no revision without a build), the input was non-null with 2 to 4 pieces, and each component is its piece parsed, with missing build and revision -1; a piece that is not a non-negative `int` makes the parse fail |
| `Versions.FormatThenParse` | src/OneWare.Essentials/Models/PackageModel.cs:246-247 | every well-formed version survives `ToString` followed by `TryParse` |
| `Versions.ThreeRunsParse` | src/OneWare.Essentials/Models/PackageModel.cs:246-247 | three digit runs joined by dots parse as a three-component version with undefined revision |
| `Versions.NoDotNoVersion` | src/OneWare.Essentials/Models/PackageModel.cs:247 | a string without a dot, such as the `""` used for a null installed version, never parses |
| `Versions.CompareTo` | src/OneWare.Essentials/Models/PackageModel.cs:249 | the comparison is 0 exactly for equal versions and otherwise -1 or 1 |
| `Versions.CompareAntisymmetric` | src/OneWare.Essentials/Models/PackageModel.cs:249 | swapping the operands negates the comparison |
| `Versions.GreaterIrreflexive` | src/OneWare.Essentials/Models/PackageModel.cs:249 | no version is newer than itself |
| `Versions.GreaterTransitive` | src/OneWare.Essentials/Models/PackageModel.cs:249 | "newer than" is transitive |
| `Versions.GreaterTrichotomy` | src/OneWare.Essentials/Models/PackageModel.cs:249 | of two different versions one is newer |
| `Packages.LatestVersionString` | src/OneWare.Essentials/Models/PackageModel.cs:246 | the latest version is the last entry of the version list, and absent for a null or empty list |
| `Packages.DeriveStatus` | src/OneWare.Essentials/Models/PackageModel.cs:246-256 | `UpdateAvailable` iff both parse and latest is newer; `Installed` iff installed parses and latest is not newer; `Available` iff only latest parses; `Unavailable` iff neither parses |
| `Packages.UpdateStatus` | src/OneWare.Essentials/Models/PackageModel.cs:242-257 | `NeedRestart` is kept; any other status becomes the derived status |
| `Packages.DerivedIsSettled` | src/OneWare.Essentials/Models/PackageModel.cs:249-256 | recomputation never produces `Installing` or `NeedRestart` |
| `Packages.NotInstalledStatus` | src/OneWare.Essentials/Models/PackageModel.cs:247-256 | with nothing installed the status is `Available` if the latest version parses, else `Unavailable` |
| `Packages.ToLowerAscii` | src/OneWare.Essentials/Models/PackageModel.cs:114 | lowering keeps the length and lowers each character |
| `Packages.RemoveDashes` | src/OneWare.Essentials/Models/PackageModel.cs:115 | the result contains no dash and is no longer than the input |
| `Packages.RemoveDashesNoDash` | src/OneWare.Essentials/Models/PackageModel.cs:115 | a string without dashes is unchanged by the dash removal |
| `Packages.DashlessEqualsLowerIff` | src/OneWare.Essentials/Models/PackageModel.cs:114-115 | the character-wise comparison holds iff the target with dashes removed equals the lowered platform name |
| `Packages.MatchesPlatformMeaning` | src/OneWare.Essentials/Models/PackageModel.cs:114-115 | a target fits the host iff it is non-null and, with dashes removed, equals the lowered platform name; the target itself is not lowered |
| `Packages.FirstPlatformMatch` | src/OneWare.Essentials/Models/PackageModel.cs:115 | the index found is the first target fitting the host, and none is found only when no target fits |
| `Packages.FirstAllTarget` | src/OneWare.Essentials/Models/PackageModel.cs:115 | the index found is the first `"all"` target, and none is found only when there is none |
| `Packages.SelectTarget` | src/OneWare.Essentials/Models/PackageModel.cs:112-117 | the selection is the first target fitting the host, or, when none fits, the first `"all"` target; nothing is selected only for null targets or when neither exists |
| `Packages.SelectsFirstMatch` | src/OneWare.Essentials/Models/PackageModel.cs:115 | the first target fitting the host is the one selected |
| `Packages.SelectsFirstAll` | src/OneWare.Essentials/Models/PackageModel.cs:115 | when no target fits the host, the first `"all"` target is selected |
| `Packages.SelectedTargetBelongs` | src/OneWare.Essentials/Models/PackageModel.cs:112-117 | a selected target is one of the version's targets and fits the host or is `"all"` |
| `Packages.ConventionUrl` | src/OneWare.Essentials/Models/PackageModel.cs:138 | the conventional archive location always ends in `.zip` |
| `Packages.ZipUrl` | src/OneWare.Essentials/Models/PackageModel.cs:138 | a target's own URL wins; only a target without one uses the conventional location |
| `PackageLifecycle.Create` | src/OneWare.Essentials/Models/PackageModel.cs:27-42 | a new model has nothing installed, no progress, and status `Available` or `Unavailable` depending on whether the latest version parses |
| `PackageLifecycle.CreateIgnoresDefault` | src/OneWare.Essentials/Models/PackageModel.cs:21-41 | the constructor's status is the same for every default enumeration member other than `NeedRestart` |
| `PackageLifecycle.SetInstalledVersion` | src/OneWare.Essentials/Models/PackageModel.cs:44-52 | assigning the installed version stores it and re-establishes the status invariant, keeping `NeedRestart` |
| `PackageLifecycle.SetPackage` | src/OneWare.Essentials/Models/PackageModel.cs:82-90 | assigning the package stores it and re-establishes the status invariant, keeping `NeedRestart` |
| `PackageLifecycle.ReassignRecomputes` | src/OneWare.Essentials/Models/PackageModel.cs:44-52 | assigning the same installed version or package again recomputes a drifted status |
| `PackageLifecycle.ReportProgress` | src/OneWare.Essentials/Models/PackageModel.cs:142-151 | the progress becomes the reported value; below 1 the indeterminate flag is untouched, from 1 on it is set |
| `PackageLifecycle.ReportAll` | src/OneWare.Essentials/Models/PackageModel.cs:142-151 | after a series of reports the progress is the last value, and the flag is set iff it was set before or some value was at least 1 |
| `PackageLifecycle.Fetching` | src/OneWare.Essentials/Models/PackageModel.cs:132-154 | while fetching, the status is `Installing` and the installed version is untouched |
| `PackageLifecycle.Download` | src/OneWare.Essentials/Models/PackageModel.cs:128-190 | without a target nothing is fetched and only the status becomes `Available`; otherwise the selected archive is fetched into the extraction folder; true iff target, fetch, chmod and install all succeed; success installs exactly the version and recomputes the status, which is `NeedRestart` iff the `Install` hook assigned it and the derived status otherwise; failure keeps the installed version and leaves `Available`; the last progress value is kept, and with no reports the progress is unchanged; a throwing fetch skips the flag reset |
| `PackageLifecycle.DownloadFailureConsistency` | src/OneWare.Essentials/Models/PackageModel.cs:160-186 | after a failed download the status invariant holds iff the derived status was `Available` anyway |
| `PackageLifecycle.DownloadSuccessConsistent` | src/OneWare.Essentials/Models/PackageModel.cs:169-171 | after a successful download the status invariant holds, and the status is `NeedRestart` exactly when the `Install` hook assigned it; an earlier `NeedRestart` does not survive |
| `PackageLifecycle.Remove` | src/OneWare.Essentials/Models/PackageModel.cs:212-240 | a null id, a null installed version or a throwing `PrepareRemoveAsync` faults with no change; a throwing `Uninstall` hook faults with the installed version already cleared; false iff the folder exists and its deletion fails, with no change; true iff the installed version is cleared and every hook completes; once the version is cleared the status is the one the `Uninstall` hook assigned, or the recomputed one if it assigned none |
| `PackageLifecycle.RemovePreservesConsistency` | src/OneWare.Essentials/Models/PackageModel.cs:212-240 | Remove keeps the status invariant whenever the `Uninstall` hook assigns no status, whatever the other effects do |
| `PackageLifecycle.RemoveHookDecides` | src/OneWare.Essentials/Models/PackageModel.cs:233-235 | when the removal clears the installed version and the `Uninstall` hook assigns a status, the invariant holds iff that status is `NeedRestart` or the one derived with nothing installed |
| `PackageLifecycle.RemoveTwiceFaults` | src/OneWare.Essentials/Models/PackageModel.cs:218 | after a successful Remove, a second Remove faults |
| `PackageLifecycle.DefaultCheckCompatibility` | src/OneWare.Essentials/Models/PackageModel.cs:259-262 | the default compatibility check reports every version compatible, with no report |
| `PackageLifecycle.Update` | src/OneWare.Essentials/Models/PackageModel.cs:98-110 | an incompatible version changes nothing and gives false; a removal that does not return true ends the update with no download; otherwise the result is the download's; a true result means exactly the version is installed |
| `PackageLifecycle.UpdateCanUninstall` | src/OneWare.Essentials/Models/PackageModel.cs:108-109 | when the removal succeeds and the download then fails, the update returns false with nothing installed and status `Available` |
| `PackageFixtures.Clangd17Parses` | src/OneWare.Cpp/CppModule.cs:44 | "17.0.3" parses as 17.0.3 |
| `PackageFixtures.Clangd18Parses` | src/OneWare.Cpp/CppModule.cs:90 | "18.1.3" parses as 18.1.3 |
| `PackageFixtures.Clangd19Parses` | src/OneWare.Cpp/CppModule.cs:136 | "19.1.2" parses as 19.1.2 |
| `PackageFixtures.Oss2024Parses` | src/OneWare.OssCadSuiteIntegration/OssCadSuiteIntegrationModule.cs:69 | "2024.07.27" parses as 2024.7.27 |
| `PackageFixtures.Oss2025Parses` | src/OneWare.OssCadSuiteIntegration/OssCadSuiteIntegrationModule.cs:132 | "2025.01.22" parses as 2025.1.22 |
| `PackageFixtures.Clangd19AsWrittenMisplaced` | src/OneWare.Cpp/CppModule.cs:168 | the literal's 19.1.2 macOS archive is not under the 19.1.2 release |
| `PackageFixtures.ClangdInOwnReleases` | src/OneWare.Cpp/CppModule.cs:44-180 | with the macOS path corrected, every clangd archive is under its own release |
| `PackageFixtures.LinuxNames` | src/OneWare.Essentials/Models/PackageModel.cs:114-115 | a `LinuxX64` host accepts "linux-x64" and rejects "win-x64" and "all" as platform targets |
| `PackageFixtures.LinuxAccepts` | src/OneWare.Essentials/Models/PackageModel.cs:114-115 | a `LinuxX64` host accepts "linux-x64" |
| `PackageFixtures.OsxArmRejects` | src/OneWare.Essentials/Models/PackageModel.cs:114-115 | an `OsxArm64` host rejects "win-x64", "linux-x64" and "osx-x64" |
| `PackageFixtures.OsxArmAccepts` | src/OneWare.Essentials/Models/PackageModel.cs:114-115 | an `OsxArm64` host accepts "osx-arm64" |
| `PackageFixtures.ClangdStartsAvailable` | src/OneWare.Cpp/CppModule.cs:136 | the latest clangd version is 19.1.2 and a fresh clangd model is `Available` |
| `PackageFixtures.OsxNames` | src/OneWare.Essentials/Models/PackageModel.cs:114-115 | an `OsxX64` host accepts "osx-x64" and rejects "win-x64" and "linux-x64" |
| `PackageFixtures.ClangdOsxTarget` | src/OneWare.Cpp/CppModule.cs:136-180 | an Intel macOS host selects the osx-x64 archive of every clangd version |
| `PackageFixtures.ClangdAsWrittenOsxRequest` | src/OneWare.Cpp/CppModule.cs:166-168 | downloading clangd 19.1.2 as written on an Intel macOS host requests `clangd-mac-19.1.2.zip` from the 18.1.3 release path |
| `PackageFixtures.ClangdCorrectedOsxRequest` | src/OneWare.Cpp/CppModule.cs:136-180 | with the path corrected the same download requests `clangd-mac-19.1.2.zip` from the 19.1.2 release path |
| `PackageFixtures.ClangdLinuxTarget` | src/OneWare.Cpp/CppModule.cs:44-180 | a Linux host selects the linux-x64 archive of every clangd version |
| `PackageFixtures.ClangdFailedDownload` | src/OneWare.Essentials/Models/PackageModel.cs:154-165 | a failed clangd download fetches the linux archive, returns false, stays `Available` with nothing installed, and keeps the last progress |
| `PackageFixtures.ClangdNoArmBuild` | src/OneWare.Cpp/CppModule.cs:136-180 | clangd has no target for an Apple Silicon host, so its download fails without fetching |
| `PackageFixtures.ClangdOldInstalled` | src/OneWare.Essentials/Models/PackageModel.cs:249-250 | with clangd 17.0.3 installed an update is available |
| `PackageFixtures.ClangdIncompatibleUpdate` | src/OneWare.Essentials/Models/PackageModel.cs:102-106 | an incompatible clangd update returns false and leaves 17.0.3 installed with `UpdateAvailable` |
| `PackageFixtures.ClangdRemove` | src/OneWare.Essentials/Models/PackageModel.cs:222-239 | removing clangd 18.1.3, with an `Uninstall` hook that assigns no status, returns true and leaves it `Available` |
| `PackageFixtures.ClangdUpdate` | src/OneWare.Essentials/Models/PackageModel.cs:98-110 | updating clangd from 17.0.3 to 19.1.2 on Linux returns true and ends `Installed` at 19.1.2 |
| `PackageFixtures.ClangdDowngrade` | src/OneWare.Essentials/Models/PackageModel.cs:171 | installing clangd 17.0.3 over nothing ends `UpdateAvailable` |
| `PackageFixtures.ClangdFailureLosesStatus` | src/OneWare.Essentials/Models/PackageModel.cs:182-186 | a throwing fetch over installed 18.1.3 leaves it installed but `Available`, breaking the status invariant |
| `PackageFixtures.FallbackToAll` | src/OneWare.Essentials/Models/PackageModel.cs:115 | a Linux host with only win-x64 and "all" targets selects "all" |
| `PackageFixtures.ConventionalUrl` | src/OneWare.Essentials/Models/PackageModel.cs:138 | a target without a URL is fetched from `{SourceUrl}/{Version}/{Id}_{Version}_{Target}.zip` |
| `PackageFixtures.OssCadSuiteUpdateAvailable` | src/OneWare.OssCadSuiteIntegration/OssCadSuiteIntegrationModule.cs:69-193 | with OSS CAD Suite 2024.07.27 installed an update to 2025.01.22 is available |
| `PackageFixtures.OssCadSuiteArmTarget` | src/OneWare.OssCadSuiteIntegration/OssCadSuiteIntegrationModule.cs:179 | an Apple Silicon host selects the osx-arm64 archive of OSS CAD Suite 2025.01.22 |
| `KeyConfig.Save` | src/OneWare.ApplicationCommands/Serialization/KeyConfigSerializer.cs:20-22 | every saved record comes from an overridden command, and every overridden command has its record |
| `KeyConfig.SaveAppend` | src/OneWare.ApplicationCommands/Serialization/KeyConfigSerializer.cs:20-22 | saving a list is saving its halves one after the other, so records keep list order |
| `KeyConfig.SaveOne` | src/OneWare.ApplicationCommands/Serialization/KeyConfigSerializer.cs:20-21 | a single command is written, as (name, key, modifiers), exactly when its gesture is set and differs from the default |
| `KeyConfig.SaveNothingOverridden` | src/OneWare.ApplicationCommands/Serialization/KeyConfigSerializer.cs:20 | with no overridden command nothing is written |
| `KeyConfig.FirstIndexOfName` | src/OneWare.ApplicationCommands/Serialization/KeyConfigSerializer.cs:50 | the index found is the first command with the name, and none is found only when no command has it |
| `KeyConfig.ApplyAll` | src/OneWare.ApplicationCommands/Serialization/KeyConfigSerializer.cs:48-52 | loading the records changes only gestures: every command keeps its name and default, and the list keeps its length |
| `KeyConfig.ApplyOne` | src/OneWare.ApplicationCommands/Serialization/KeyConfigSerializer.cs:50-51 | a record rebinds only the first command with its name; all other commands stay as they were |
| `KeyConfig.Load` | src/OneWare.ApplicationCommands/Serialization/KeyConfigSerializer.cs:36-58 | a missing file, a null document or a read failure changes no command |
| `KeyConfig.ApplyAllEffect` | src/OneWare.ApplicationCommands/Serialization/KeyConfigSerializer.cs:48-52 | after loading, an unshadowed command named by some record has the gesture of the last such record; every other command keeps its gesture |
| `KeyConfig.UnnamedUnchanged` | src/OneWare.ApplicationCommands/Serialization/KeyConfigSerializer.cs:48-52 | a command that no record names is unchanged by a load |
| `KeyConfig.LastRecordWins` | src/OneWare.ApplicationCommands/Serialization/KeyConfigSerializer.cs:48-52 | of two records for the same command the later decides its gesture |
| `KeyConfig.LastGestureAppend` | src/OneWare.ApplicationCommands/Serialization/KeyConfigSerializer.cs:48 | for records read in sequence, a later record for a name overrides an earlier one |
| `KeyConfig.NotNamedNotSaved` | src/OneWare.ApplicationCommands/Serialization/KeyConfigSerializer.cs:20-22 | a name that no command carries gets no record in the saved file |
| `KeyConfig.SavedGesture` | src/OneWare.ApplicationCommands/Serialization/KeyConfigSerializer.cs:20-22 | with unique names, the saved file names a command exactly when it is overridden, with its active gesture |
| `KeyConfig.RoundTrip` | src/OneWare.ApplicationCommands/Serialization/KeyConfigSerializer.cs:20-52 | with unique names, loading the saved file onto commands at their defaults restores every set gesture; a command with no gesture gets its default |
| `ListBoxSetting.AddNew` | src/OneWare.Settings/ViewModels/SettingTypes/ListBoxSettingViewModel.cs:27-38 | a blank or dismissed answer changes nothing; any other answer is appended at the end, with the earlier items unchanged |
| `ListBoxSetting.EditSelected` | src/OneWare.Settings/ViewModels/SettingTypes/ListBoxSettingViewModel.cs:40-55 | an out-of-range index returns before the dialog opens, with no change; otherwise the dialog shows the selected value, and a non-blank answer replaces only that item |
| `ListBoxSetting.RemoveSelected` | src/OneWare.Settings/ViewModels/SettingTypes/ListBoxSettingViewModel.cs:57-63 | an out-of-range index changes nothing; otherwise exactly the selected item is removed, the others keep their order, and the index is unchanged |
| `ListBoxSetting.RemoveSelectedMultiset` | src/OneWare.Settings/ViewModels/SettingTypes/ListBoxSettingViewModel.cs:62 | removal loses exactly one occurrence of the selected value |
| `ListBoxSetting.RemoveLastLeavesIndexAtCount` | src/OneWare.Settings/ViewModels/SettingTypes/ListBoxSettingViewModel.cs:57-63 | removing the last item leaves the selected index equal to the item count |
| `ListBoxSetting.StaleIndexIsInert` | src/OneWare.Settings/ViewModels/SettingTypes/ListBoxSettingViewModel.cs:42-60 | with the index past the end, another removal and an edit do nothing and the dialog does not open |
| `ListBoxSetting.AddThenRemove` | src/OneWare.Settings/ViewModels/SettingTypes/ListBoxSettingViewModel.cs:36-62 | adding a value and removing the new last item restores the list |
| `ListBoxSetting.EditBackRestores` | src/OneWare.Settings/ViewModels/SettingTypes/ListBoxSettingViewModel.cs:45-54 | answering a second edit with the value the first dialog showed restores the list |
| `ModuleCatalogs.AddModule` | src/OneWare.Core/Services/ModuleCatalog.cs:14-17 | the type is appended at the end, the list grows by one, and the adapter dictionary is untouched |
| `ModuleCatalogs.AddPrismModule` | src/OneWare.Core/Services/ModuleCatalog.cs:23-29 | the adapter type, not the module type, is appended; the dictionary maps the module to its adapter and keeps its other entries |
| `ModuleCatalogs.GetModules` | src/OneWare.Core/Services/ModuleCatalog.cs:32-35 | the whole list is returned, one entry per registration made (the order is stated by `RegisterInOrder`) |
| `ModuleCatalogs.RegisterAppend` | src/OneWare.Core/Services/ModuleCatalog.cs:14-29 | registering two batches one after the other gives the same catalog as registering them as one batch |
| `ModuleCatalogs.RegisterInOrder` | src/OneWare.Core/Services/ModuleCatalog.cs:32-35 | after any sequence of registrations the list holds one token per call, in call order, with duplicates kept |
| `ModuleCatalogs.RegisterAdapters` | src/OneWare.Core/Services/ModuleCatalog.cs:27 | after any sequence of registrations the dictionary holds exactly the Prism modules registered, each mapped to its adapter |
| `ModuleCatalogs.PrismModuleTwice` | src/OneWare.Core/Services/ModuleCatalog.cs:27-28 | registering a Prism module twice leaves one dictionary entry and two adapter entries in the list |
| `AggregateModuleCatalogs.AggregateModules` | src/OneWare.Core/Services/AggregateModuleCatalog.cs:37-48 | the list starts with the default catalog's modules |
| `AggregateModuleCatalogs.AddCatalog` | src/OneWare.Core/Services/AggregateModuleCatalog.cs:16-19 | the catalog is appended to the list and the default catalog is unchanged |
| `AggregateModuleCatalogs.AggregateAddModule` | src/OneWare.Core/Services/AggregateModuleCatalog.cs:22-25 | only the default catalog is changed, by its own `AddModule` |
| `AggregateModuleCatalogs.AggregateAddPrismModule` | src/OneWare.Core/Services/AggregateModuleCatalog.cs:31-34 | only the default catalog is changed, by its own `AddPrismModule` |
| `AggregateModuleCatalogs.AddCatalogAppends` | src/OneWare.Core/Services/AggregateModuleCatalog.cs:16-44 | the modules of a catalog added last come after all modules already listed |
| `AggregateModuleCatalogs.AddModuleGoesToDefault` | src/OneWare.Core/Services/AggregateModuleCatalog.cs:22-44 | a module added to the aggregate appears after the default catalog's modules and before every added catalog's modules |
| `AggregateModuleCatalogs.AddPrismModuleGoesToDefault` | src/OneWare.Core/Services/AggregateModuleCatalog.cs:31-44 | a Prism module added to the aggregate appears, as its adapter, after the default catalog's modules |
| `AggregateModuleCatalogs.CountIsSumOfParts` | src/OneWare.Core/Services/AggregateModuleCatalog.cs:39-47 | the aggregate lists as many modules as its default catalog and its added catalog trees hold registrations together, with no deduplication |
| `AggregateModuleCatalogs.CountOf` | src/OneWare.Core/Services/AggregateModuleCatalog.cs:37-48 | a plain or nested catalog lists exactly as many modules as its tree holds registrations |
| `AggregateModuleCatalogs.CountsAdd` | src/OneWare.Core/Services/AggregateModuleCatalog.cs:41-44 | the added catalogs' concatenated modules are as many as their trees hold registrations |
| `AggregateModuleCatalogs.ListedSomewhere` | src/OneWare.Core/Services/AggregateModuleCatalog.cs:41-44 | a module is among the added catalogs' modules iff one of them lists it |
| `AggregateModuleCatalogs.NestedFlattens` | src/OneWare.Core/Services/AggregateModuleCatalog.cs:39-47 | a nested aggregate's modules appear, default catalog first, where the nested catalog sits |

## Left out

- Async, tasks and `Task.Delay` are left out. Each operation runs to completion as one step. Interleaved calls on one model, or a change to `SelectedIndex` or `Items` while a dialog is open, are not modelled.
- The `Installing`, `Installed` and `Removed` events, logging and the application-state messages are left out. They have no effect on the modelled fields; an exception thrown by an event handler is not modelled.
- The order in which `Progress<T>` posts callbacks is not modelled. All reported values are applied before the fetch returns. Progress is a real number; float rounding is not modelled.
- The archive fetch, `ChmodFolder`, `Directory.Exists`/`Delete` and the `Install`, `Uninstall` and `PrepareRemoveAsync` hooks are outcome parameters. Their effects on the file system are not modelled.
- `PackageLifecycle.Download`: a status the `Install` hook assigns is modelled only on the path where the hook completes. A hook that assigns a status and then throws ends in the catch block, which assigns `Available` anyway.
- `PackageLifecycle.Remove`: a status the `Uninstall` hook assigns is applied whether or not the hook then throws, so a throwing hook is taken to assign its status before it throws.
- The `PackageStatus` enumeration is not part of this model. Its default member, which the status field holds before the constructor's first recomputation, is assumed not to be `NeedRestart`; `CreateIgnoresDefault` shows every other choice gives the same model.
- Only the base, virtual `SelectTarget` is modelled; overrides are not. `RemoveTwiceFaults` depends on the base version, which dereferences the installed version.
- The host platform is a string parameter holding the name of the platform enumeration member (such as `LinuxX64`). `PlatformHelper` is not part of this model. `ToLower` lowers ASCII letters only; culture-specific lowering is not modelled.
- The code that sets `NeedRestart` and the package service that merges catalogs are not part of this model. `NeedRestart` enters the model as an initial status or through the status writes of the `Install` and `Uninstall` hooks; the code that sets it elsewhere is not part of this model.
- Exceptions from an overriding `CheckCompatibilityAsync` are not modelled. The check's result is a parameter.
- `KeyConfig.Load`: the JSON layer is the identity on the record list. Property-name case folding, a record with a null command name, and partial writes by a failing `SaveHotkeys` are not modelled. A failing write is logged and swallowed, which leaves nothing to model in the command list.
- Gestures are compared by key and modifiers. This matches the value equality of Avalonia's `KeyGesture`, which is not part of this model.
- `ModuleCatalogs.GetModules` returns the live list in C#, so callers could mutate it. The model returns a value.
- `AggregateModuleCatalogs.AddCatalog`: an added catalog is stored as a value, not a reference. Registrations made on that catalog after it was added are not seen by the aggregate's `GetModules`, and a catalog added twice does not change in both places. In C# the aggregate keeps the reference and reads each catalog's current list when `GetModules` is called.
- An aggregate catalog that contains itself would recurse without end in C#. Immutable datatypes cannot express that cycle.
- Other `IModuleCatalog` implementations are not modelled. A catalog added to an aggregate is either a plain or an aggregate catalog.
- `Versions.TryParse`: culture-specific digits and number formats other than `NumberStyles.Integer` with the invariant culture are not modelled.

## Findings

| source | as written | input that shows it | evidently intended | confidence | as-written member | corrected member |
|---|---|---|---|---|---|---|
| src/OneWare.Cpp/CppModule.cs:168 | the osx-x64 archive of clangd 19.1.2 is fetched from the 18.1.3 release path | Download of clangd 19.1.2 on an osx-x64 host requests `.../releases/download/18.1.3/clangd-mac-19.1.2.zip` | the 19.1.2 release path, like the other two targets of that version | not executed | `PackageFixtures.ClangdAsWrittenOsxRequest` | `PackageFixtures.ClangdCorrectedOsxRequest` |

=== FILE: aggregate_module_catalog.dfy ===
/**
 * The aggregate module catalog: a default catalog of its own, followed by the
 * catalogs added to it, each of which may itself be a plain or an aggregate
 * catalog.
 */
module AggregateModuleCatalogs {
  import opened ModuleCatalogs

  /** A catalog added to an aggregate: one of the two catalog implementations. */
  datatype CatalogRef =
    | PlainCatalog(catalog: ModuleCatalog)
    | NestedAggregate(aggregate: AggregateCatalog)

  /** The aggregate's state: its own default catalog and the added catalogs, in `AddCatalog` order. */
  datatype AggregateCatalog = AggregateCatalog(defaultCatalog: ModuleCatalog, catalogs: seq<CatalogRef>)

  /** A freshly constructed aggregate: an empty default catalog and no added catalogs. */
  const EmptyAggregate := AggregateCatalog(Empty, [])

  /** `GetModules` of whichever catalog a reference names. */
  function ModulesOf(c: CatalogRef): seq<ModuleType>
    decreases c, 1
  {
    match c
    case PlainCatalog(m) => GetModules(m)
    case NestedAggregate(a) => AggregateModules(a)
  }

  /** The modules of a list of catalogs, concatenated in list order. */
  function ModulesOfAll(cs: seq<CatalogRef>): seq<ModuleType>
    decreases cs, 0
  {
    if |cs| == 0 then [] else ModulesOfAll(cs[..|cs| - 1]) + ModulesOf(cs[|cs| - 1])
  }

  /** `GetModules`: a fresh list with the default catalog's modules, then each added catalog's, in order. */
  function AggregateModules(a: AggregateCatalog): (r: seq<ModuleType>)
    ensures |r| >= |a.defaultCatalog.modules| && r[..|a.defaultCatalog.modules|] == GetModules(a.defaultCatalog)
    decreases a, 2
  {
    GetModules(a.defaultCatalog) + ModulesOfAll(a.catalogs)
  }

  /** `AddCatalog`: append the catalog to the list; the default catalog is unchanged. */
  function AddCatalog(a: AggregateCatalog, c: CatalogRef): (r: AggregateCatalog)
    ensures r.defaultCatalog == a.defaultCatalog
    ensures |r.catalogs| == |a.catalogs| + 1
    ensures r.catalogs[..|a.catalogs|] == a.catalogs && r.catalogs[|a.catalogs|] == c
  {
    a.(catalogs := a.catalogs + [c])
  }

  /** `AddModule<T>`: delegated to the default catalog only. */
  function AggregateAddModule(a: AggregateCatalog, t: string): (r: AggregateCatalog)
    ensures r.catalogs == a.catalogs
    ensures r.defaultCatalog == AddModule(a.defaultCatalog, t)
  {
    a.(defaultCatalog := AddModule(a.defaultCatalog, t))
  }

  /** `AddPrismModule<T>`: delegated to the default catalog only. */
  function AggregateAddPrismModule(a: AggregateCatalog, t: string): (r: AggregateCatalog)
    ensures r.catalogs == a.catalogs
    ensures r.defaultCatalog == AddPrismModule(a.defaultCatalog, t)
  {
    a.(defaultCatalog := AddPrismModule(a.defaultCatalog, t))
  }

  /** The modules of a catalog added last come after everything already there. */
  lemma AddCatalogAppends(a: AggregateCatalog, c: CatalogRef)
    ensures AggregateModules(AddCatalog(a, c)) == AggregateModules(a) + ModulesOf(c)
  {
  }

  /** A module added to the aggregate lands at the end of the default catalog's part, before every added catalog's modules. */
  lemma AddModuleGoesToDefault(a: AggregateCatalog, t: string)
    ensures AggregateModules(AggregateAddModule(a, t))
         == GetModules(a.defaultCatalog) + [Module(t)] + ModulesOfAll(a.catalogs)
  {
  }

  /** A Prism module added to the aggregate lands, as its adapter, at the end of the default catalog's part. */
  lemma AddPrismModuleGoesToDefault(a: AggregateCatalog, t: string)
    ensures AggregateModules(AggregateAddPrismModule(a, t))
         == GetModules(a.defaultCatalog) + [PrismModuleAdapter(t)] + ModulesOfAll(a.catalogs)
  {
  }

  /** How many registrations a catalog tree holds: every plain catalog's list length, summed over the tree. */
  function CatalogCount(c: CatalogRef): nat
    decreases c, 1
  {
    match c
    case PlainCatalog(m) => |m.modules|
    case NestedAggregate(a) => |a.defaultCatalog.modules| + CountAll(a.catalogs)
  }

  /** `CatalogCount` summed over a list of catalogs. */
  function CountAll(cs: seq<CatalogRef>): nat
    decreases cs, 0
  {
    if |cs| == 0 then 0 else CountAll(cs[..|cs| - 1]) + CatalogCount(cs[|cs| - 1])
  }

  /** No deduplication: the aggregate lists as many modules as its default catalog and its added catalog trees hold together. */
  lemma {:induction false} CountIsSumOfParts(a: AggregateCatalog)
    ensures |AggregateModules(a)| == |GetModules(a.defaultCatalog)| + CountAll(a.catalogs)
    ensures |AggregateModules(a)| == CatalogCount(NestedAggregate(a))
  {
    CountsAdd(a.catalogs);
  }

  /** A catalog reference lists exactly as many modules as its tree holds registrations. */
  lemma {:induction false} CountOf(c: CatalogRef)
    ensures |ModulesOf(c)| == CatalogCount(c)
    decreases c, 1
  {
    match c
    case PlainCatalog(m) =>
    case NestedAggregate(a) => CountsAdd(a.catalogs);
  }

  /** The concatenated modules of a list of catalogs are as many as their trees hold registrations. */
  lemma {:induction false} CountsAdd(cs: seq<CatalogRef>)
    ensures |ModulesOfAll(cs)| == CountAll(cs)
    decreases cs, 0
  {
    if |cs| > 0 {
      CountsAdd(cs[..|cs| - 1]);
      CountOf(cs[|cs| - 1]);
    }
  }

  /** A module is listed by the aggregate exactly when its default catalog or one of the added catalogs lists it. */
  lemma {:induction false} ListedSomewhere(cs: seq<CatalogRef>, t: ModuleType)
    ensures t in ModulesOfAll(cs) <==> exists i :: 0 <= i < |cs| && t in ModulesOf(cs[i])
    decreases |cs|
  {
    if |cs| > 0 {
      var n := |cs| - 1;
      ListedSomewhere(cs[..n], t);
      if t in ModulesOfAll(cs[..n]) {
        var i :| 0 <= i < n && t in ModulesOf(cs[..n][i]);
        assert cs[i] == cs[..n][i];
      }
      if exists i :: 0 <= i < |cs| && t in ModulesOf(cs[i]) {
        var i :| 0 <= i < |cs| && t in ModulesOf(cs[i]);
        if i < n {
          assert cs[..n][i] == cs[i];
        }
      }
    }
  }

  /** Nesting an aggregate inside another lists its modules, default catalog first, where the nested catalog sits. */
  lemma NestedFlattens(outer: ModuleCatalog, inner: AggregateCatalog)
    ensures AggregateModules(AggregateCatalog(outer, [NestedAggregate(inner)]))
         == GetModules(outer) + GetModules(inner.defaultCatalog) + ModulesOfAll(inner.catalogs)
  {
    var cs := [NestedAggregate(inner)];
    assert cs[..0] == [];
    assert ModulesOfAll(cs) == ModulesOf(NestedAggregate(inner));
  }
}

=== FILE: key_config.dfy ===
/**
 * The hotkey configuration file of the command manager: which commands are
 * written out on save, and how a loaded file is applied back onto the
 * command list.
 *
 * The JSON layer is taken as the identity over the list of
 * (command name, key, modifiers) records; opening, reading and writing the
 * file are left to the caller, and the outcome of reading it is a parameter.
 */
module KeyConfig {
  import opened Wrappers

  /** A key combination; two gestures are equal when key and modifiers are. */
  datatype KeyGesture = KeyGesture(key: int, modifiers: int)

  /** The part of an application command the serializer looks at. */
  datatype Command = Command(name: string, active: Option<KeyGesture>, default: Option<KeyGesture>)

  /** One record of the hotkey file. */
  datatype KeyConfigItem = KeyConfigItem(command: string, key: int, modifiers: int)

  /** What reading the hotkey file produced. */
  datatype Document =
    | Missing                              // no file at the path
    | ReadFailed                           // opening or deserializing threw
    | NullDocument                         // the file deserialized to null
    | Items(items: seq<KeyConfigItem>)

  // ---------------------------------------------------------------------------
  // Save
  // ---------------------------------------------------------------------------

  /** A command the user has rebound: it has a gesture, and not its default one. */
  predicate Overridden(c: Command) {
    c.active.Some? && c.active != c.default
  }

  /** The record written for an overridden command. */
  function ItemOf(c: Command): (it: KeyConfigItem)
    requires c.active.Some?
    ensures it.command == c.name && GestureOf(it) == c.active.value
  {
    KeyConfigItem(c.name, c.active.value.key, c.active.value.modifiers)
  }

  /** The gesture a record stands for. */
  function GestureOf(it: KeyConfigItem): KeyGesture {
    KeyGesture(it.key, it.modifiers)
  }

  /** The records `SaveHotkeys` serializes: one per overridden command, in list order. */
  function Save(cs: seq<Command>): (r: seq<KeyConfigItem>)
    ensures |r| <= |cs|
    ensures forall it :: it in r ==> exists c :: c in cs && Overridden(c) && it == ItemOf(c)
    ensures forall c :: c in cs && Overridden(c) ==> ItemOf(c) in r
    decreases |cs|
  {
    if |cs| == 0 then []
    else
      var rest := Save(cs[1..]);
      assert forall c :: c in cs[1..] ==> c in cs;
      if Overridden(cs[0]) then [ItemOf(cs[0])] + rest else rest
  }

  /** Saving a list is saving its two halves one after the other: the order of the records is the list order. */
  lemma {:induction false} SaveAppend(a: seq<Command>, b: seq<Command>)
    ensures Save(a + b) == Save(a) + Save(b)
    decreases |a|
  {
    if |a| > 0 {
      assert (a + b)[0] == a[0];
      assert (a + b)[1..] == a[1..] + b;
      SaveAppend(a[1..], b);
    } else {
      assert a + b == b;
    }
  }

  /** A single command is written exactly when it is overridden. */
  lemma SaveOne(c: Command)
    ensures Save([c]) == (if Overridden(c) then [ItemOf(c)] else [])
  {
  }

  /** Nothing is written for a list in which no command is overridden. */
  lemma {:induction false} SaveNothingOverridden(cs: seq<Command>)
    requires forall i :: 0 <= i < |cs| ==> !Overridden(cs[i])
    ensures Save(cs) == []
    decreases |cs|
  {
    if |cs| > 0 {
      SaveNothingOverridden(cs[1..]);
    }
  }

  // ---------------------------------------------------------------------------
  // Load
  // ---------------------------------------------------------------------------

  /** The position of the first command called `name`, as `FirstOrDefault` finds it. */
  function FirstIndexOfName(cs: seq<Command>, name: string): (r: Option<nat>)
    ensures r.Some? ==> r.value < |cs| && cs[r.value].name == name
    ensures r.Some? ==> forall j :: 0 <= j < r.value ==> cs[j].name != name
    ensures r.None? <==> forall j :: 0 <= j < |cs| ==> cs[j].name != name
    decreases |cs|
  {
    if |cs| == 0 then None
    else if cs[0].name == name then Some(0)
    else
      var r := FirstIndexOfName(cs[1..], name);
      if r.Some? then Some(r.value + 1) else None
  }

  /** A command is shadowed when an earlier command has the same name: no record can reach it. */
  predicate Shadowed(cs: seq<Command>, i: nat)
    requires i < |cs|
  {
    exists j :: 0 <= j < i && cs[j].name == cs[i].name
  }

  /** The first command with a given name is exactly the unshadowed command of that name. */
  lemma FirstIndexIsUnshadowed(cs: seq<Command>, name: string, i: nat)
    requires i < |cs|
    ensures FirstIndexOfName(cs, name) == Some(i) <==> cs[i].name == name && !Shadowed(cs, i)
  {
  }

  /** One iteration of the load loop: rebind the first command named by the record, if any. */
  function ApplyOne(cs: seq<Command>, it: KeyConfigItem): (r: seq<Command>)
    ensures |r| == |cs|
    ensures forall i :: 0 <= i < |cs| ==> r[i].name == cs[i].name && r[i].default == cs[i].default
    ensures forall i :: 0 <= i < |cs| && (cs[i].name != it.command || Shadowed(cs, i)) ==> r[i] == cs[i]
    ensures forall i :: 0 <= i < |cs| && cs[i].name == it.command && !Shadowed(cs, i)
              ==> r[i].active == Some(GestureOf(it))
  {
    var k := FirstIndexOfName(cs, it.command);
    if k.None? then cs
    else
      var r := cs[k.value := cs[k.value].(active := Some(GestureOf(it)))];
      assert forall i :: 0 <= i < |cs| ==> (FirstIndexOfName(cs, it.command) == Some(i) <==> cs[i].name == it.command && !Shadowed(cs, i)) by {
        forall i | 0 <= i < |cs| {
          FirstIndexIsUnshadowed(cs, it.command, i);
        }
      }
      r
  }

  /** The load loop: the records applied one after the other, in file order. */
  function ApplyAll(cs: seq<Command>, items: seq<KeyConfigItem>): (r: seq<Command>)
    ensures |r| == |cs|
    ensures forall i :: 0 <= i < |cs| ==> r[i].name == cs[i].name && r[i].default == cs[i].default
    decreases |items|
  {
    if |items| == 0 then cs else ApplyAll(ApplyOne(cs, items[0]), items[1..])
  }

  /** The gesture of the last record naming `name`, if any record does. */
  function LastGestureFor(items: seq<KeyConfigItem>, name: string): (r: Option<KeyGesture>)
    ensures r.None? <==> forall j :: 0 <= j < |items| ==> items[j].command != name
    decreases |items|
  {
    if |items| == 0 then None
    else
      var later := LastGestureFor(items[1..], name);
      if later.Some? then later
      else if items[0].command == name then Some(GestureOf(items[0]))
      else None
  }

  /** `LoadHotkeys`: nothing happens unless the file exists and deserializes to a list; errors are swallowed. */
  function Load(cs: seq<Command>, doc: Document): (r: seq<Command>)
    ensures !doc.Items? ==> r == cs
    ensures |r| == |cs|
  {
    match doc
    case Items(items) => ApplyAll(cs, items)
    case _ => cs
  }

  /** Shadowing depends only on the names, which the load loop never changes. */
  lemma ShadowedByNames(cs: seq<Command>, ds: seq<Command>, i: nat)
    requires |cs| == |ds| && i < |cs|
    requires forall k :: 0 <= k < |cs| ==> cs[k].name == ds[k].name
    ensures Shadowed(cs, i) <==> Shadowed(ds, i)
  {
  }

  /**
   * What loading a list of records does to each command: an unshadowed command
   * named by some record takes the gesture of the last such record; every other
   * command keeps its gesture.
   */
  lemma {:induction false} ApplyAllEffect(cs: seq<Command>, items: seq<KeyConfigItem>, i: nat)
    requires i < |cs|
    ensures ApplyAll(cs, items)[i].active
         == (if !Shadowed(cs, i) && LastGestureFor(items, cs[i].name).Some?
             then LastGestureFor(items, cs[i].name)
             else cs[i].active)
    decreases |items|
  {
    if |items| > 0 {
      var ds := ApplyOne(cs, items[0]);
      ApplyAllEffect(ds, items[1..], i);
      ShadowedByNames(cs, ds, i);
    }
  }

  /** A command nobody names keeps its gesture through a load. */
  lemma UnnamedUnchanged(cs: seq<Command>, doc: Document, i: nat)
    requires i < |cs|
    requires doc.Items? ==> forall j :: 0 <= j < |doc.items| ==> doc.items[j].command != cs[i].name
    ensures Load(cs, doc)[i] == cs[i]
  {
    if doc.Items? {
      ApplyAllEffect(cs, doc.items, i);
    }
  }

  /** When two records name the same command, the later one decides its gesture. */
  lemma LastRecordWins(cs: seq<Command>, i: nat, a: KeyConfigItem, b: KeyConfigItem)
    requires i < |cs| && !Shadowed(cs, i)
    requires a.command == cs[i].name && b.command == cs[i].name
    ensures Load(cs, Items([a, b]))[i].active == Some(GestureOf(b))
  {
    ApplyAllEffect(cs, [a, b], i);
    assert [a, b][1..] == [b];
    assert [b][1..] == [];
  }

  // ---------------------------------------------------------------------------
  // Round trip
  // ---------------------------------------------------------------------------

  /** Every command back at its default gesture, as a fresh start of the application has them. */
  function ResetToDefaults(cs: seq<Command>): (r: seq<Command>)
    ensures |r| == |cs|
    ensures forall i :: 0 <= i < |cs| ==> r[i] == cs[i].(active := cs[i].default)
    decreases |cs|
  {
    if |cs| == 0 then [] else [cs[0].(active := cs[0].default)] + ResetToDefaults(cs[1..])
  }

  /** No two commands share a name. */
  predicate UniqueNames(cs: seq<Command>) {
    forall i, j :: 0 <= i < j < |cs| ==> cs[i].name != cs[j].name
  }

  /** With unique names no command is shadowed. */
  lemma UniqueUnshadowed(cs: seq<Command>, i: nat)
    requires UniqueNames(cs) && i < |cs|
    ensures !Shadowed(cs, i)
  {
  }

  /** The last gesture for a name in two files read one after the other. */
  lemma {:induction false} LastGestureAppend(a: seq<KeyConfigItem>, b: seq<KeyConfigItem>, name: string)
    ensures LastGestureFor(a + b, name)
         == (if LastGestureFor(b, name).Some? then LastGestureFor(b, name) else LastGestureFor(a, name))
    decreases |a|
  {
    if |a| > 0 {
      assert (a + b)[0] == a[0];
      assert (a + b)[1..] == a[1..] + b;
      LastGestureAppend(a[1..], b, name);
    } else {
      assert a + b == b;
    }
  }

  /** A name that no command carries gets no record in the saved file. */
  lemma NotNamedNotSaved(cs: seq<Command>, n: string)
    requires forall k :: 0 <= k < |cs| ==> cs[k].name != n
    ensures LastGestureFor(Save(cs), n).None?
  {
  }

  /** Dropping the first command keeps the names unique. */
  lemma UniqueTail(cs: seq<Command>)
    requires |cs| > 0 && UniqueNames(cs)
    ensures UniqueNames(cs[1..])
    ensures forall k :: 0 <= k < |cs[1..]| ==> cs[1..][k].name != cs[0].name
  {
  }

  /** With unique names, the saved file holds a record for a name exactly when that command is overridden. */
  lemma {:induction false} SavedGesture(cs: seq<Command>, i: nat)
    requires UniqueNames(cs) && i < |cs|
    ensures LastGestureFor(Save(cs), cs[i].name)
         == (if Overridden(cs[i]) then cs[i].active else None)
    decreases |cs|
  {
    var head := if Overridden(cs[0]) then [ItemOf(cs[0])] else [];
    var rest := cs[1..];
    assert Save(cs) == head + Save(rest);
    LastGestureAppend(head, Save(rest), cs[i].name);
    UniqueTail(cs);
    if i == 0 {
      NotNamedNotSaved(rest, cs[0].name);
    } else {
      SavedGesture(rest, i - 1);
      assert rest[i - 1] == cs[i];
    }
  }

  /**
   * Round trip: with unique names, loading the saved file onto the commands at
   * their defaults gives every command its gesture back, except that a command
   * that had no gesture at all returns to its default.
   */
  lemma RoundTrip(cs: seq<Command>, i: nat)
    requires UniqueNames(cs) && i < |cs|
    ensures Load(ResetToDefaults(cs), Items(Save(cs)))[i].active
         == (if cs[i].active.Some? then cs[i].active else cs[i].default)
  {
    var ds := ResetToDefaults(cs);
    ApplyAllEffect(ds, Save(cs), i);
    SavedGesture(cs, i);
    ShadowedByNames(cs, ds, i);
    UniqueUnshadowed(cs, i);
  }
}

=== FILE: list_box_setting.dfy ===
/**
 * The list editing behind a list-box setting: add a value, edit the selected
 * value, remove the selected value.
 *
 * The input dialog is a parameter: its answer is the string the user typed,
 * or `None` when the dialog was dismissed (the C# code then sees null).
 */
module ListBoxSetting {
  import opened Wrappers

  /** The setting's items together with the view model's selected index. */
  datatype ListBoxState = ListBoxState(items: seq<string>, selectedIndex: int)

  /** The result of an edit: the new state, and the value the dialog was opened with (`None`: it never opened). */
  datatype EditResult = EditResult(state: ListBoxState, prompted: Option<string>)

  /** The characters `char.IsWhiteSpace` accepts: the Unicode space, line and paragraph separators and the control blanks. */
  predicate IsWhiteSpaceChar(c: char) {
    || ('\U{0009}' <= c <= '\U{000D}') || c == ' ' || c == '\U{0085}' || c == '\U{00A0}'
    || c == '\U{1680}' || ('\U{2000}' <= c <= '\U{200A}') || c == '\U{2028}' || c == '\U{2029}'
    || c == '\U{202F}' || c == '\U{205F}' || c == '\U{3000}'
  }

  /** `string.IsNullOrWhiteSpace`. */
  predicate IsNullOrWhiteSpace(s: Option<string>) {
    s.None? || forall i :: 0 <= i < |s.value| ==> IsWhiteSpaceChar(s.value[i])
  }

  /** Whether the selected index points at an item. */
  predicate SelectionInRange(st: ListBoxState) {
    0 <= st.selectedIndex < |st.items|
  }

  /** `AddNewAsync`: append the dialog's answer unless it is blank. */
  function AddNew(st: ListBoxState, answer: Option<string>): (r: ListBoxState)
    ensures r.selectedIndex == st.selectedIndex
    ensures IsNullOrWhiteSpace(answer) ==> r == st
    ensures !IsNullOrWhiteSpace(answer) ==>
      |r.items| == |st.items| + 1 && r.items[..|st.items|] == st.items && r.items[|st.items|] == answer.value
  {
    if IsNullOrWhiteSpace(answer) then st else st.(items := st.items + [answer.value])
  }

  /** `EditSelectedAsync`: with a valid selection, show the selected value and replace it by a non-blank answer. */
  function EditSelected(st: ListBoxState, answer: Option<string>): (r: EditResult)
    ensures r.state.selectedIndex == st.selectedIndex
    ensures |r.state.items| == |st.items|
    ensures !SelectionInRange(st) ==> r.prompted.None? && r.state == st
    ensures SelectionInRange(st) ==> r.prompted == Some(st.items[st.selectedIndex])
    ensures IsNullOrWhiteSpace(answer) ==> r.state == st
    ensures SelectionInRange(st) && !IsNullOrWhiteSpace(answer) ==>
      forall j :: 0 <= j < |st.items| ==>
        r.state.items[j] == (if j == st.selectedIndex then answer.value else st.items[j])
  {
    if !SelectionInRange(st) then EditResult(st, None)
    else
      var current := st.items[st.selectedIndex];
      if IsNullOrWhiteSpace(answer) then EditResult(st, Some(current))
      else EditResult(st.(items := st.items[st.selectedIndex := answer.value]), Some(current))
  }

  /** `RemoveSelected`: with a valid selection, remove that item; the index itself is left alone. */
  function RemoveSelected(st: ListBoxState): (r: ListBoxState)
    ensures r.selectedIndex == st.selectedIndex
    ensures !SelectionInRange(st) ==> r == st
    ensures SelectionInRange(st) ==>
      && |r.items| == |st.items| - 1
      && (forall j :: 0 <= j < st.selectedIndex ==> r.items[j] == st.items[j])
      && (forall j :: st.selectedIndex <= j < |r.items| ==> r.items[j] == st.items[j + 1])
  {
    if !SelectionInRange(st) then st
    else st.(items := st.items[..st.selectedIndex] + st.items[st.selectedIndex + 1..])
  }

  /** Removing loses exactly the selected value: the bag of items shrinks by that one occurrence. */
  lemma RemoveSelectedMultiset(st: ListBoxState)
    requires SelectionInRange(st)
    ensures multiset(RemoveSelected(st).items) + multiset{st.items[st.selectedIndex]} == multiset(st.items)
  {
    var i := st.selectedIndex;
    assert st.items == st.items[..i] + [st.items[i]] + st.items[i + 1..];
  }

  /** Removing the last item leaves the selected index equal to the new item count, pointing past the end. */
  lemma RemoveLastLeavesIndexAtCount(st: ListBoxState)
    requires |st.items| > 0 && st.selectedIndex == |st.items| - 1
    ensures RemoveSelected(st).selectedIndex == |RemoveSelected(st).items|
    ensures !SelectionInRange(RemoveSelected(st))
  {
  }

  /** Once the index points past the end, a second removal and an edit do nothing. */
  lemma StaleIndexIsInert(st: ListBoxState, answer: Option<string>)
    requires |st.items| > 0 && st.selectedIndex == |st.items| - 1
    ensures var once := RemoveSelected(st);
      && RemoveSelected(once) == once
      && EditSelected(once, answer) == EditResult(once, None)
  {
  }

  /** Adding a value and then removing it again, with the index on the new last item, restores the list. */
  lemma AddThenRemove(st: ListBoxState, answer: Option<string>)
    requires !IsNullOrWhiteSpace(answer)
    ensures RemoveSelected(AddNew(st, answer).(selectedIndex := |st.items|)).items == st.items
  {
  }

  /** Editing the selected value and then answering with the value the dialog showed restores the list. */
  lemma EditBackRestores(st: ListBoxState, answer: Option<string>)
    requires SelectionInRange(st) && !IsNullOrWhiteSpace(Some(st.items[st.selectedIndex]))
    ensures var first := EditSelected(st, answer);
      EditSelected(first.state, first.prompted).state.items == st.items
  {
  }
}

=== FILE: module_catalog.dfy ===
/**
 * The application's module catalog: an append-only, ordered list of module
 * type tokens, plus the record of which Prism modules were wrapped in an
 * adapter.
 *
 * A type is represented by its name; `PrismModuleAdapter(t)` stands for the
 * closed generic type `PrismModuleAdapter<T>` built by reflection.
 */
module ModuleCatalogs {

  /** A module type token as the catalog stores it. */
  datatype ModuleType =
    | Module(name: string)                  // a native module type `T`
    | PrismModuleAdapter(prismModule: string) // `PrismModuleAdapter<T>` for a Prism module `T`

  /** The catalog's two collections: the module list and the Prism-module-to-adapter dictionary. */
  datatype ModuleCatalog = ModuleCatalog(modules: seq<ModuleType>, prismAdapters: map<string, ModuleType>)

  /** A freshly constructed catalog. */
  const Empty := ModuleCatalog([], map[])

  /** `AddModule<T>`: append `T`; the adapter dictionary is untouched. */
  function AddModule(c: ModuleCatalog, t: string): (r: ModuleCatalog)
    ensures |r.modules| == |c.modules| + 1
    ensures r.modules[..|c.modules|] == c.modules && r.modules[|c.modules|] == Module(t)
    ensures r.prismAdapters == c.prismAdapters
  {
    c.(modules := c.modules + [Module(t)])
  }

  /** `AddPrismModule<T>`: record (or overwrite) the adapter for `T` and append the adapter type, not `T`. */
  function AddPrismModule(c: ModuleCatalog, t: string): (r: ModuleCatalog)
    ensures |r.modules| == |c.modules| + 1
    ensures r.modules[..|c.modules|] == c.modules && r.modules[|c.modules|] == PrismModuleAdapter(t)
    ensures r.prismAdapters.Keys == c.prismAdapters.Keys + {t}
    ensures r.prismAdapters[t] == PrismModuleAdapter(t)
    ensures forall k :: k in c.prismAdapters && k != t ==> r.prismAdapters[k] == c.prismAdapters[k]
  {
    c.(prismAdapters := c.prismAdapters[t := PrismModuleAdapter(t)], modules := c.modules + [PrismModuleAdapter(t)])
  }

  /** `GetModules`: the module list itself, in insertion order and with duplicates. */
  function GetModules(c: ModuleCatalog): (r: seq<ModuleType>)
    ensures |r| == |c.modules|
  {
    c.modules
  }

  /** One registration call made against a catalog. */
  datatype Registration = AddModuleCall(t: string) | AddPrismModuleCall(t: string)

  /** The type token a registration puts into the list. */
  function TokenOf(reg: Registration): ModuleType {
    match reg
    case AddModuleCall(t) => Module(t)
    case AddPrismModuleCall(t) => PrismModuleAdapter(t)
  }

  /** The registrations performed one after the other. */
  function Register(c: ModuleCatalog, regs: seq<Registration>): ModuleCatalog
    decreases |regs|
  {
    if |regs| == 0 then c
    else
      var before := Register(c, regs[..|regs| - 1]);
      match regs[|regs| - 1]
      case AddModuleCall(t) => AddModule(before, t)
      case AddPrismModuleCall(t) => AddPrismModule(before, t)
  }

  /** The tokens the registrations put into the list, one per call. */
  function Tokens(regs: seq<Registration>): (r: seq<ModuleType>)
    ensures |r| == |regs|
    ensures forall i :: 0 <= i < |regs| ==> r[i] == TokenOf(regs[i])
  {
    seq(|regs|, i requires 0 <= i < |regs| => TokenOf(regs[i]))
  }

  /** The tokens of two batches of registrations are the first batch's tokens followed by the second's. */
  lemma TokensAppend(a: seq<Registration>, b: seq<Registration>)
    ensures Tokens(a + b) == Tokens(a) + Tokens(b)
  {
  }

  /** The Prism modules named by a sequence of registrations. */
  function PrismNames(regs: seq<Registration>): set<string> {
    set i | 0 <= i < |regs| && regs[i].AddPrismModuleCall? :: regs[i].t
  }

  /** The Prism modules named by all but the last registration, and by the last one. */
  lemma PrismNamesSnoc(regs: seq<Registration>)
    requires |regs| > 0
    ensures var n := |regs| - 1;
      PrismNames(regs) == PrismNames(regs[..n]) + (if regs[n].AddPrismModuleCall? then {regs[n].t} else {})
  {
  }

  /** Insertion order: after a sequence of registrations the list holds one token per call, in call order, duplicates kept. */
  lemma {:induction false} RegisterInOrder(c: ModuleCatalog, regs: seq<Registration>)
    ensures GetModules(Register(c, regs)) == c.modules + Tokens(regs)
    decreases |regs|
  {
    if |regs| > 0 {
      var n := |regs| - 1;
      RegisterInOrder(c, regs[..n]);
      assert Tokens(regs) == Tokens(regs[..n]) + [TokenOf(regs[n])];
    }
  }

  /** Registering two batches one after the other is registering their concatenation. */
  lemma {:induction false} RegisterAppend(c: ModuleCatalog, a: seq<Registration>, b: seq<Registration>)
    ensures Register(c, a + b) == Register(Register(c, a), b)
    decreases |b|
  {
    if |b| > 0 {
      var n := |b| - 1;
      assert (a + b)[..|a + b| - 1] == a + b[..n];
      assert (a + b)[|a + b| - 1] == b[n];
      RegisterAppend(c, a, b[..n]);
    } else {
      assert a + b == a;
    }
  }

  /** After a sequence of registrations the dictionary holds exactly the Prism modules registered, each mapped to its adapter. */
  lemma {:induction false} RegisterAdapters(c: ModuleCatalog, regs: seq<Registration>)
    ensures Register(c, regs).prismAdapters.Keys == c.prismAdapters.Keys + PrismNames(regs)
    ensures forall t :: t in PrismNames(regs) ==> Register(c, regs).prismAdapters[t] == PrismModuleAdapter(t)
    decreases |regs|
  {
    if |regs| == 0 {
      assert PrismNames(regs) == {};
    } else {
      RegisterAdapters(c, regs[..|regs| - 1]);
      PrismNamesSnoc(regs);
    }
  }

  /** Registering the same Prism module twice leaves one dictionary entry but two adapter entries in the list. */
  lemma PrismModuleTwice(c: ModuleCatalog, t: string)
    ensures var r := AddPrismModule(AddPrismModule(c, t), t);
      && r.prismAdapters.Keys == c.prismAdapters.Keys + {t}
      && r.prismAdapters[t] == PrismModuleAdapter(t)
      && GetModules(r) == c.modules + [PrismModuleAdapter(t), PrismModuleAdapter(t)]
  {
  }
}

=== FILE: package_fixtures.dfy ===
/**
 * Two of the application's package literals, the clangd language server and
 * the OSS CAD Suite, reduced to the fields the package model reads, and the
 * lifecycle scenarios worked out on them.
 */
module PackageFixtures {
  import opened Wrappers
  import opened Versions
  import opened Packages
  import opened PackageLifecycle

  /** A clangd archive: the target it is built for, the release it is published under, its file name. */
  datatype Archive = Archive(target: string, release: string, file: string)

  const ClangdUrlBase := "https://github.com/clangd/clangd/releases/download/"

  function ArchiveTarget(a: Archive): PackageTarget {
    PackageTarget(Some(a.target), Some(ClangdUrlBase + a.release + "/" + a.file))
  }

  /** A clangd version with its Windows, Linux and macOS archives, in that order. */
  function ClangdVersion(version: string, win: Archive, linux: Archive, osx: Archive): PackageVersion {
    PackageVersion(Some(version), Some([ArchiveTarget(win), ArchiveTarget(linux), ArchiveTarget(osx)]))
  }

  /** All three archives of a clangd version are published under the release of that version. */
  predicate InOwnRelease(version: string, win: Archive, linux: Archive, osx: Archive) {
    win.release == version && linux.release == version && osx.release == version
  }

  const Win17 := Archive("win-x64", "17.0.3", "clangd-windows-17.0.3.zip")
  const Linux17 := Archive("linux-x64", "17.0.3", "clangd-linux-17.0.3.zip")
  const Osx17 := Archive("osx-x64", "17.0.3", "clangd-mac-17.0.3.zip")
  const Clangd17 := ClangdVersion("17.0.3", Win17, Linux17, Osx17)

  const Win18 := Archive("win-x64", "18.1.3", "clangd-windows-18.1.3.zip")
  const Linux18 := Archive("linux-x64", "18.1.3", "clangd-linux-18.1.3.zip")
  const Osx18 := Archive("osx-x64", "18.1.3", "clangd-mac-18.1.3.zip")
  const Clangd18 := ClangdVersion("18.1.3", Win18, Linux18, Osx18)

  const Win19 := Archive("win-x64", "19.1.2", "clangd-windows-19.1.2.zip")
  const Linux19 := Archive("linux-x64", "19.1.2", "clangd-linux-19.1.2.zip")
  /** The macOS archive of 19.1.2 as the literal writes it: published under the 18.1.3 release. */
  const Osx19AsWritten := Archive("osx-x64", "18.1.3", "clangd-mac-19.1.2.zip")
  /** The macOS archive of 19.1.2 under its own release. */
  const Osx19 := Archive("osx-x64", "19.1.2", "clangd-mac-19.1.2.zip")

  /** Version 19.1.2 as the literal writes it. */
  const Clangd19AsWritten := ClangdVersion("19.1.2", Win19, Linux19, Osx19AsWritten)
  /** Version 19.1.2 with the macOS release path corrected. */
  const Clangd19 := ClangdVersion("19.1.2", Win19, Linux19, Osx19)

  /** The clangd package as the literal writes it: three versions, each for win-x64, linux-x64 and osx-x64, no "all" target. */
  const Clangd := Package(Some("clangd"), None, Some([Clangd17, Clangd18, Clangd19AsWritten]))
  /** The clangd package with the macOS release path of 19.1.2 corrected. */
  const ClangdCorrected := Package(Some("clangd"), None, Some([Clangd17, Clangd18, Clangd19]))

  const OssUrlBase := "https://github.com/YosysHQ/oss-cad-suite-build/releases/download/"

  const Oss2024 := PackageVersion(Some("2024.07.27"), Some([
    PackageTarget(Some("win-x64"), Some("https://github.com/HendrikMennen/oss-cad-suite-build/releases/download/2024-07-27/oss-cad-suite-windows-x64-20240727.tgz")),
    PackageTarget(Some("linux-x64"), Some(OssUrlBase + "2024-07-27/oss-cad-suite-linux-x64-20240727.tgz")),
    PackageTarget(Some("osx-x64"), Some(OssUrlBase + "2024-07-27/oss-cad-suite-darwin-x64-20240727.tgz")),
    PackageTarget(Some("osx-arm64"), Some(OssUrlBase + "2024-07-27/oss-cad-suite-darwin-arm64-20240727.tgz"))]))

  const Oss2025 := PackageVersion(Some("2025.01.22"), Some([
    PackageTarget(Some("win-x64"), Some("https://github.com/HendrikMennen/oss-cad-suite-build/releases/download/2025-01-22/oss-cad-suite-windows-x64-20250122.tgz")),
    PackageTarget(Some("linux-x64"), Some(OssUrlBase + "2025-01-22/oss-cad-suite-linux-x64-20250122.tgz")),
    PackageTarget(Some("osx-x64"), Some(OssUrlBase + "2025-01-22/oss-cad-suite-darwin-x64-20250122.tgz")),
    PackageTarget(Some("osx-arm64"), Some(OssUrlBase + "2025-01-22/oss-cad-suite-darwin-arm64-20250122.tgz"))]))

  /** The OSS CAD Suite package: two date-like versions, with an osx-arm64 target as well. */
  const OssCadSuite := Package(Some("osscadsuite"), None, Some([Oss2024, Oss2025]))

  const ClangdFolder := "NativeTools/clangd"

  // ---------------------------------------------------------------------------
  // Versions
  // ---------------------------------------------------------------------------

  lemma Clangd17Parses()
    ensures TryParse(Some("17.0.3")) == Some(Version(17, 0, 3, -1))
  {
    ThreeRunsParse("17.0.3", "17", "0", "3");
  }

  lemma Clangd18Parses()
    ensures TryParse(Some("18.1.3")) == Some(Version(18, 1, 3, -1))
  {
    ThreeRunsParse("18.1.3", "18", "1", "3");
  }

  lemma Clangd19Parses()
    ensures TryParse(Some("19.1.2")) == Some(Version(19, 1, 2, -1))
  {
    ThreeRunsParse("19.1.2", "19", "1", "2");
  }

  /** Leading zeros are accepted: the date-like version is read as year, month and day. */
  lemma Oss2024Parses()
    ensures TryParse(Some("2024.07.27")) == Some(Version(2024, 7, 27, -1))
  {
    ThreeRunsParse("2024.07.27", "2024", "07", "27");
  }

  /** Leading zeros are accepted: the date-like version is read as year, month and day. */
  lemma Oss2025Parses()
    ensures TryParse(Some("2025.01.22")) == Some(Version(2025, 1, 22, -1))
  {
    ThreeRunsParse("2025.01.22", "2025", "01", "22");
  }

  // ---------------------------------------------------------------------------
  // Release paths of the clangd archives
  // ---------------------------------------------------------------------------

  /** The literal's 19.1.2 macOS archive is looked up under the 18.1.3 release. */
  lemma Clangd19AsWrittenMisplaced()
    ensures !InOwnRelease("19.1.2", Win19, Linux19, Osx19AsWritten)
  {
  }

  /** With the release path corrected every clangd archive lives under its own release. */
  lemma ClangdInOwnReleases()
    ensures InOwnRelease("17.0.3", Win17, Linux17, Osx17)
    ensures InOwnRelease("18.1.3", Win18, Linux18, Osx18)
    ensures InOwnRelease("19.1.2", Win19, Linux19, Osx19)
  {
  }

  // ---------------------------------------------------------------------------
  // Lifecycle scenarios
  // ---------------------------------------------------------------------------

  const Linux := "LinuxX64"
  const Osx := "OsxX64"
  const OsxArm := "OsxArm64"

  /** Which fixture target names a 64-bit Linux host accepts. */
  lemma LinuxNames()
    ensures !DashlessEqualsLower("win-x64", Linux) && DashlessEqualsLower("linux-x64", Linux)
    ensures !DashlessEqualsLower("all", Linux)
  {
    LinuxAccepts();
  }

  /** A 64-bit Linux host accepts the linux-x64 target name. */
  lemma LinuxAccepts()
    ensures DashlessEqualsLower("linux-x64", Linux)
  {
    assert DashlessEqualsLower("x64", "X64");
  }

  /** Which clangd target names an Intel macOS host accepts. */
  lemma OsxNames()
    ensures !DashlessEqualsLower("win-x64", Osx) && !DashlessEqualsLower("linux-x64", Osx)
    ensures DashlessEqualsLower("osx-x64", Osx)
  {
    assert DashlessEqualsLower("x64", "X64");
  }

  /** An Apple Silicon host rejects every clangd target name. */
  lemma OsxArmRejects()
    ensures !DashlessEqualsLower("win-x64", OsxArm) && !DashlessEqualsLower("linux-x64", OsxArm)
    ensures !DashlessEqualsLower("osx-x64", OsxArm)
  {
  }

  /** An Apple Silicon host accepts the osx-arm64 target name. */
  lemma OsxArmAccepts()
    ensures DashlessEqualsLower("osx-arm64", OsxArm)
  {
    assert DashlessEqualsLower("arm64", "Arm64");
  }

  /** The latest clangd version is 19.1.2, so a fresh clangd model is `Available`. */
  lemma ClangdStartsAvailable()
    ensures Latest(Clangd) == Some(Version(19, 1, 2, -1))
    ensures Create(Clangd, ClangdFolder).status == Available
  {
    Clangd19Parses();
  }

  /** A Linux host picks the linux-x64 archive of any clangd version. */
  lemma ClangdLinuxTarget(version: string, win: Archive, linux: Archive, osx: Archive)
    requires win.target == "win-x64" && linux.target == "linux-x64"
    ensures SelectTarget(Linux, ClangdVersion(version, win, linux, osx))
         == Some(ArchiveTarget(linux))
  {
    var v := ClangdVersion(version, win, linux, osx);
    LinuxNames();
    assert !MatchesPlatform(v.targets.value[0], Linux);
    assert MatchesPlatform(v.targets.value[1], Linux);
    SelectsFirstMatch(Linux, v, 1);
  }

  /** An Intel macOS host picks the osx-x64 archive of any clangd version. */
  lemma ClangdOsxTarget(version: string, win: Archive, linux: Archive, osx: Archive)
    requires win.target == "win-x64" && linux.target == "linux-x64" && osx.target == "osx-x64"
    ensures SelectTarget(Osx, ClangdVersion(version, win, linux, osx))
         == Some(ArchiveTarget(osx))
  {
    var v := ClangdVersion(version, win, linux, osx);
    OsxNames();
    assert !MatchesPlatform(v.targets.value[0], Osx);
    assert !MatchesPlatform(v.targets.value[1], Osx);
    assert MatchesPlatform(v.targets.value[2], Osx);
    SelectsFirstMatch(Osx, v, 2);
  }

  /**
   * Downloading clangd 19.1.2 as the literal writes it on an Intel macOS host
   * fetches the 19.1.2 macOS archive from the 18.1.3 release path.
   */
  lemma ClangdAsWrittenOsxRequest(fx: DownloadEffects)
    ensures Download(Create(Clangd, ClangdFolder), Osx, Clangd19AsWritten, fx).fetched
         == Some(FetchRequest(ArchiveTarget(Osx19AsWritten).url.value, ClangdFolder))
    ensures Osx19AsWritten.file == "clangd-mac-19.1.2.zip" && Osx19AsWritten.release == "18.1.3"
  {
    ClangdOsxTarget("19.1.2", Win19, Linux19, Osx19AsWritten);
  }

  /**
   * With the release path corrected, the same download fetches the 19.1.2
   * macOS archive from the 19.1.2 release path.
   */
  lemma ClangdCorrectedOsxRequest(fx: DownloadEffects)
    ensures Download(Create(ClangdCorrected, ClangdFolder), Osx, Clangd19, fx).fetched
         == Some(FetchRequest(ArchiveTarget(Osx19).url.value, ClangdFolder))
    ensures Osx19.file == "clangd-mac-19.1.2.zip" && Osx19.release == "19.1.2"
  {
    ClangdOsxTarget("19.1.2", Win19, Linux19, Osx19);
  }

  /**
   * A fresh clangd model whose download of 19.1.2 fails: the status falls back
   * to `Available`, nothing becomes installed, the call returns false, and the
   * last reported progress is kept.
   */
  lemma ClangdFailedDownload()
    ensures var d := Download(Create(Clangd, ClangdFolder), Linux, Clangd19AsWritten, DownloadEffects([0.25, 0.5], NotExtracted, true, true, None));
      && !d.ok && d.model.status == Available && d.model.installed.None?
      && d.model.progress == 0.5 && !d.model.isIndeterminate
      && d.fetched == Some(FetchRequest(ArchiveTarget(Linux19).url.value, ClangdFolder))
  {
    ClangdLinuxTarget("19.1.2", Win19, Linux19, Osx19AsWritten);
  }

  /** clangd has no osx-arm64 build and no "all" build: the download fails without fetching anything. */
  lemma ClangdNoArmBuild()
    ensures SelectTarget(OsxArm, Clangd19AsWritten).None?
    ensures var d := Download(Create(Clangd, ClangdFolder), OsxArm, Clangd19AsWritten, DownloadEffects([], Extracted, true, true, None));
      !d.ok && d.fetched.None? && d.model.status == Available
  {
    var ts := Clangd19AsWritten.targets.value;
    OsxArmRejects();
    assert !MatchesPlatform(ts[0], OsxArm);
    assert !MatchesPlatform(ts[1], OsxArm);
    assert !MatchesPlatform(ts[2], OsxArm);
    assert NoPlatformMatch(ts, OsxArm);
    assert NoAllTarget(ts);
  }

  /** clangd with 17.0.3 installed has an update available. */
  lemma ClangdOldInstalled()
    ensures SetInstalledVersion(Create(Clangd, ClangdFolder), Some(Clangd17)).status == UpdateAvailable
  {
    Clangd17Parses();
    Clangd19Parses();
  }

  /** An incompatible update of clangd changes nothing at all. */
  lemma ClangdIncompatibleUpdate(rfx: RemoveEffects, dfx: DownloadEffects)
    ensures var m := SetInstalledVersion(Create(Clangd, ClangdFolder), Some(Clangd17));
      var u := Update(m, Linux, Clangd19AsWritten, CompatibilityReport(false, Some("incompatible")), rfx, dfx);
      && u.outcome == Returned(false) && u.fetched.None?
      && u.model.installed == Some(Clangd17) && u.model.status == UpdateAvailable
  {
    ClangdOldInstalled();
  }

  /**
   * Removing clangd 18.1.3 from an existing folder, with an `Uninstall` hook
   * that leaves the status alone, leaves clangd `Available`, since 19.1.2 is
   * still listed.
   */
  lemma ClangdRemove()
    ensures var m := SetInstalledVersion(Create(Clangd, ClangdFolder), Some(Clangd18));
      var r := Remove(m, Linux, RemoveEffects(true, true, true, true, None));
      && r.outcome == Returned(true) && r.model.installed.None? && r.model.status == Available
  {
    Clangd19Parses();
  }

  /** A full update of clangd from 17.0.3 to 19.1.2 on Linux ends `Installed` at 19.1.2. */
  lemma ClangdUpdate()
    ensures var m := SetInstalledVersion(Create(Clangd, ClangdFolder), Some(Clangd17));
      var u := Update(m, Linux, Clangd19AsWritten, DefaultCheckCompatibility(Clangd19AsWritten),
                      RemoveEffects(true, true, true, true, None), DownloadEffects([0.5, 1.0], Extracted, true, true, None));
      && u.outcome == Returned(true) && u.model.installed == Some(Clangd19AsWritten) && u.model.status == Installed
  {
    Clangd19Parses();
    ClangdLinuxTarget("19.1.2", Win19, Linux19, Osx19AsWritten);
  }

  /** Installing an older clangd than the latest ends in `UpdateAvailable`, neither `Installed` nor `Available`. */
  lemma ClangdDowngrade()
    ensures Download(Create(Clangd, ClangdFolder), Linux, Clangd17, DownloadEffects([], Extracted, true, true, None)).model.status
         == UpdateAvailable
  {
    Clangd17Parses();
    Clangd19Parses();
    ClangdLinuxTarget("17.0.3", Win17, Linux17, Osx17);
  }

  /**
   * A failed download over an installed clangd reports `Available` although
   * 18.1.3 stays installed: the status no longer matches the derived one.
   */
  lemma ClangdFailureLosesStatus()
    ensures var m := SetInstalledVersion(Create(Clangd, ClangdFolder), Some(Clangd18));
      var d := Download(m, Linux, Clangd19AsWritten, DownloadEffects([], FetchThrew, true, true, None));
      && d.model.installed == Some(Clangd18) && d.model.status == Available
      && DeriveStatus(Clangd, Some(Clangd18)) == UpdateAvailable
      && !StatusConsistent(d.model)
  {
    Clangd18Parses();
    Clangd19Parses();
    ClangdLinuxTarget("19.1.2", Win19, Linux19, Osx19AsWritten);
  }

  /** A Linux host with only a win-x64 and an "all" target falls back to "all". */
  lemma FallbackToAll()
    ensures var all := PackageTarget(Some("all"), None);
      SelectTarget(Linux, PackageVersion(Some("1.0"), Some([PackageTarget(Some("win-x64"), None), all]))) == Some(all)
  {
    var all := PackageTarget(Some("all"), None);
    var v := PackageVersion(Some("1.0"), Some([PackageTarget(Some("win-x64"), None), all]));
    LinuxNames();
    assert !MatchesPlatform(v.targets.value[0], Linux);
    assert !MatchesPlatform(v.targets.value[1], Linux);
    SelectsFirstAll(Linux, v, 1);
  }

  /** An "all" target without a URL is fetched from the conventional location. */
  lemma ConventionalUrl()
    ensures ZipUrl(Package(Some("tool"), Some("https://example.org/tool"), None),
                   PackageVersion(Some("1.0"), None), PackageTarget(Some("all"), None))
         == "https://example.org/tool/1.0/tool_1.0_all.zip"
  {
  }

  /** OSS CAD Suite 2024.07.27 is older than 2025.01.22, so with it installed an update is available. */
  lemma OssCadSuiteUpdateAvailable()
    ensures SetInstalledVersion(Create(OssCadSuite, "NativeTools/osscadsuite"), Some(Oss2024)).status == UpdateAvailable
  {
    Oss2024Parses();
    Oss2025Parses();
  }

  /** Apple Silicon hosts get the osx-arm64 archive of the OSS CAD Suite. */
  lemma OssCadSuiteArmTarget()
    ensures SelectTarget(OsxArm, Oss2025) == Some(Oss2025.targets.value[3])
  {
    var ts := Oss2025.targets.value;
    OsxArmRejects();
    OsxArmAccepts();
    assert !MatchesPlatform(ts[0], OsxArm);
    assert !MatchesPlatform(ts[1], OsxArm);
    assert !MatchesPlatform(ts[2], OsxArm);
    assert MatchesPlatform(ts[3], OsxArm);
    SelectsFirstMatch(OsxArm, Oss2025, 3);
  }
}

=== FILE: package_model.dfy ===
/**
 * The package lifecycle state machine of `PackageModel`: status bookkeeping,
 * the progress callback, and the Download, Remove and Update transitions.
 *
 * Every effect the C# code has on the outside world (the archive fetch, the
 * folder check and deletion, the permission fix-up and the overridable hooks)
 * is a parameter describing how that effect turned out, so each transition is
 * a pure function from the old model to the new one.
 */
module PackageLifecycle {
  import opened Wrappers
  import opened Packages

  /** The observable state of one `PackageModel` instance. */
  datatype PackageModel = PackageModel(
    package: Package,
    extractionFolder: string,
    installed: Option<PackageVersion>,
    status: PackageStatus,
    progress: real,
    isIndeterminate: bool)

  /**
   * The value of the status field before the constructor's first
   * recomputation: the enumeration's default member, taken to be a settled
   * status and not `NeedRestart` (`CreateIgnoresDefault` shows that any such
   * choice gives the same model).
   */
  const DefaultStatus: PackageStatus := Unavailable

  /** The stated invariant: the status is the derived one unless it is the sticky `NeedRestart`. */
  predicate StatusConsistent(m: PackageModel) {
    m.status == NeedRestart || m.status == DeriveStatus(m.package, m.installed)
  }

  /** The constructor: nothing installed, no progress, and a first status recomputation. */
  function Create(p: Package, extractionFolder: string): (m: PackageModel)
    ensures m.package == p && m.extractionFolder == extractionFolder
    ensures m.installed.None? && m.progress == 0.0 && !m.isIndeterminate
    ensures m.status == (if Latest(p).Some? then Available else Unavailable)
    ensures StatusConsistent(m)
  {
    NotInstalledStatus(p);
    PackageModel(p, extractionFolder, None, UpdateStatus(DefaultStatus, p, None), 0.0, false)
  }

  /** Which default member the status enumeration has does not matter, as long as it is not `NeedRestart`. */
  lemma CreateIgnoresDefault(p: Package, extractionFolder: string, s: PackageStatus)
    requires s != NeedRestart
    ensures Create(p, extractionFolder).status == UpdateStatus(s, p, None)
  {
  }

  /** The `InstalledVersion` setter: store, then recompute, even when the value is the same. */
  function SetInstalledVersion(m: PackageModel, v: Option<PackageVersion>): (r: PackageModel)
    ensures r.installed == v
    ensures r.package == m.package && r.extractionFolder == m.extractionFolder
    ensures r.progress == m.progress && r.isIndeterminate == m.isIndeterminate
    ensures m.status == NeedRestart ==> r.status == NeedRestart
    ensures StatusConsistent(r)
  {
    m.(installed := v, status := UpdateStatus(m.status, m.package, v))
  }

  /** The `Package` setter: store, then recompute, even when the value is the same. */
  function SetPackage(m: PackageModel, p: Package): (r: PackageModel)
    ensures r.package == p
    ensures r.installed == m.installed && r.extractionFolder == m.extractionFolder
    ensures r.progress == m.progress && r.isIndeterminate == m.isIndeterminate
    ensures m.status == NeedRestart ==> r.status == NeedRestart
    ensures StatusConsistent(r)
  {
    m.(package := p, status := UpdateStatus(m.status, p, m.installed))
  }

  /** Re-assigning the current installed version repairs a status that had drifted from the derived one. */
  lemma ReassignRecomputes(m: PackageModel)
    requires m.status != NeedRestart
    ensures SetInstalledVersion(m, m.installed).status == DeriveStatus(m.package, m.installed)
    ensures SetPackage(m, m.package).status == DeriveStatus(m.package, m.installed)
  {
  }

  // ---------------------------------------------------------------------------
  // Progress callback
  // ---------------------------------------------------------------------------

  /** The download's progress callback: record `x`; from 1 on the extraction phase is indeterminate. */
  function ReportProgress(m: PackageModel, x: real): (r: PackageModel)
    ensures r.progress == x
    ensures x < 1.0 ==> r.isIndeterminate == m.isIndeterminate
    ensures x >= 1.0 ==> r.isIndeterminate
    ensures r.package == m.package && r.installed == m.installed && r.status == m.status
    ensures r.extractionFolder == m.extractionFolder
  {
    m.(progress := x, isIndeterminate := if x < 1.0 then m.isIndeterminate else true)
  }

  /** The callback applied to each reported value in turn. */
  function ReportAll(m: PackageModel, xs: seq<real>): (r: PackageModel)
    ensures |xs| == 0 ==> r == m
    ensures |xs| > 0 ==> r.progress == xs[|xs| - 1]
    ensures r.isIndeterminate <==> m.isIndeterminate || exists i :: 0 <= i < |xs| && xs[i] >= 1.0
    ensures r.package == m.package && r.installed == m.installed && r.status == m.status
    ensures r.extractionFolder == m.extractionFolder
    decreases |xs|
  {
    if |xs| == 0 then m
    else
      var r := ReportAll(ReportProgress(m, xs[0]), xs[1..]);
      assert forall i :: 1 <= i < |xs| ==> xs[i] == xs[1..][i - 1];
      r
  }

  // ---------------------------------------------------------------------------
  // Download
  // ---------------------------------------------------------------------------

  /** How `DownloadAndExtractArchiveAsync` ended: true, false, or an exception. */
  datatype FetchOutcome = Extracted | NotExtracted | FetchThrew

  /**
   * The outside effects of one download: the progress values the fetcher
   * reports, how the fetch ends, whether the permission fix-up and the
   * `Install` hook complete without throwing, and the status the hook
   * assigns, if it assigns one.
   */
  datatype DownloadEffects = DownloadEffects(
    progressReports: seq<real>,
    fetch: FetchOutcome,
    chmodOk: bool,
    installOk: bool,
    installStatus: Option<PackageStatus>)

  /** What the archive fetcher is asked for: an archive URL and the destination folder. */
  datatype FetchRequest = FetchRequest(url: string, folder: string)

  /** The model after the call, the returned bool, and the fetch request made, if any. */
  datatype DownloadResult = DownloadResult(model: PackageModel, ok: bool, fetched: Option<FetchRequest>)

  /** The state the progress callback and the fetcher see: status is `Installing` from the first step on. */
  function Fetching(m: PackageModel, reports: seq<real>): (r: PackageModel)
    ensures r.status == Installing
    ensures r.installed == m.installed && r.package == m.package
    ensures r.isIndeterminate <==> m.isIndeterminate || exists i :: 0 <= i < |reports| && reports[i] >= 1.0
  {
    ReportAll(m.(status := Installing), reports)
  }

  /**
   * `DownloadAsync(version)` on host `platform`. The status is set to
   * `Installing` first; a version without a fitting target, a failed or
   * throwing fetch and a throwing hook all end in `Available` and `false`
   * with the installed version untouched; a full success installs exactly
   * `version` and recomputes the status, which keeps a `NeedRestart` the
   * `Install` hook assigned and overwrites any other status it assigned.
   */
  function Download(m: PackageModel, platform: string, version: PackageVersion, fx: DownloadEffects): (r: DownloadResult)
    ensures r.model.status != Installing
    ensures r.model.package == m.package && r.model.extractionFolder == m.extractionFolder
    // no target: nothing is fetched and only the status moves
    ensures SelectTarget(platform, version).None? ==>
      r == DownloadResult(m.(status := Available), false, None)
    // a target: its archive is fetched into the extraction folder
    ensures SelectTarget(platform, version).Some? ==>
      r.fetched == Some(FetchRequest(ZipUrl(m.package, version, SelectTarget(platform, version).value), m.extractionFolder))
    ensures r.ok <==> SelectTarget(platform, version).Some? && fx.fetch == Extracted && fx.chmodOk && fx.installOk
    ensures r.ok ==> r.model.installed == Some(version)
    ensures r.ok ==>
      r.model.status == (if fx.installStatus == Some(NeedRestart) then NeedRestart else DeriveStatus(m.package, Some(version)))
    ensures r.ok ==> !r.model.isIndeterminate
    ensures !r.ok ==> r.model.installed == m.installed && r.model.status == Available
    // after a fetch the progress is the last reported value; a failure does not reset it
    ensures r.fetched.Some? && |fx.progressReports| > 0 ==> r.model.progress == fx.progressReports[|fx.progressReports| - 1]
    ensures r.fetched.Some? && |fx.progressReports| == 0 ==> r.model.progress == m.progress
    ensures r.fetched.Some? && fx.fetch != FetchThrew ==> !r.model.isIndeterminate
    // a throwing fetch skips the reset of the indeterminate flag
    ensures r.fetched.Some? && fx.fetch == FetchThrew ==>
      r.model.isIndeterminate == Fetching(m, fx.progressReports).isIndeterminate
  {
    match SelectTarget(platform, version)
    case None => DownloadResult(m.(status := Available), false, None)
    case Some(t) =>
      var request := Some(FetchRequest(ZipUrl(m.package, version, t), m.extractionFolder));
      var during := Fetching(m, fx.progressReports);
      match fx.fetch
      case FetchThrew => DownloadResult(during.(status := Available), false, request)
      case NotExtracted => DownloadResult(during.(isIndeterminate := false, status := Available), false, request)
      case Extracted =>
        var after := during.(isIndeterminate := false);
        if !fx.chmodOk || !fx.installOk then DownloadResult(after.(status := Available), false, request)
        else
          var hooked := if fx.installStatus.Some? then after.(status := fx.installStatus.value) else after;
          DownloadResult(SetInstalledVersion(hooked, Some(version)), true, request)
  }

  /** A failed download keeps the invariant exactly when the derived status was `Available` anyway. */
  lemma DownloadFailureConsistency(m: PackageModel, platform: string, version: PackageVersion, fx: DownloadEffects)
    requires !Download(m, platform, version, fx).ok
    ensures StatusConsistent(Download(m, platform, version, fx).model)
        <==> DeriveStatus(m.package, m.installed) == Available
  {
  }

  /**
   * A successful download leaves a consistent status. It ends `NeedRestart`
   * exactly when the `Install` hook asked for it: a `NeedRestart` set before
   * the download is gone.
   */
  lemma DownloadSuccessConsistent(m: PackageModel, platform: string, version: PackageVersion, fx: DownloadEffects)
    requires Download(m, platform, version, fx).ok
    ensures StatusConsistent(Download(m, platform, version, fx).model)
    ensures Download(m, platform, version, fx).model.status == NeedRestart <==> fx.installStatus == Some(NeedRestart)
  {
  }

  // ---------------------------------------------------------------------------
  // Remove
  // ---------------------------------------------------------------------------

  /**
   * The outside effects of one removal: whether `PrepareRemoveAsync` completes,
   * whether the extraction folder exists, whether deleting it succeeds,
   * whether the `Uninstall` hook completes, and the status the hook assigns,
   * if it assigns one.
   */
  datatype RemoveEffects = RemoveEffects(
    prepareOk: bool,
    folderExists: bool,
    deleteOk: bool,
    uninstallOk: bool,
    uninstallStatus: Option<PackageStatus>)

  /** How the returned task ends: with a bool, or faulted by an exception nobody catches. */
  datatype Completion = Returned(value: bool) | Faulted

  datatype RemoveResult = RemoveResult(model: PackageModel, outcome: Completion)

  /**
   * `RemoveAsync()` on host `platform`. A null package id, and a null installed
   * version (the target lookup dereferences it), fault before any effect. A
   * folder that exists and cannot be deleted gives `false` and no change; an
   * absent folder or a successful deletion clears the installed version, and
   * the `Uninstall` hook, which runs after that, has the last word on the
   * status.
   */
  function Remove(m: PackageModel, platform: string, fx: RemoveEffects): (r: RemoveResult)
    ensures m.package.id.None? || m.installed.None? ==> r == RemoveResult(m, Faulted)
    ensures r.outcome == Returned(false) <==>
      && m.package.id.Some? && m.installed.Some?
      && (SelectTarget(platform, m.installed.value).None? || fx.prepareOk)
      && fx.folderExists && !fx.deleteOk
    ensures r.outcome == Returned(false) ==> r.model == m
    ensures r.outcome == Returned(true) <==>
      && m.package.id.Some? && m.installed.Some?
      && (SelectTarget(platform, m.installed.value).None? || fx.prepareOk)
      && (!fx.folderExists || fx.deleteOk)
      && fx.uninstallOk
    ensures r.outcome != Returned(false) && r.model != m ==>
      && r.model.installed.None?
      && r.model.status == (if fx.uninstallStatus.Some? then fx.uninstallStatus.value
                            else UpdateStatus(m.status, m.package, None))
      && r.model.package == m.package && r.model.extractionFolder == m.extractionFolder
      && r.model.progress == m.progress && r.model.isIndeterminate == m.isIndeterminate
    ensures r.outcome == Returned(true) ==> r.model.installed.None?
    // a throwing `PrepareRemoveAsync` faults before anything changes
    ensures m.package.id.Some? && m.installed.Some? && SelectTarget(platform, m.installed.value).Some? && !fx.prepareOk ==>
      r == RemoveResult(m, Faulted)
    // a throwing `Uninstall` hook faults after the installed version has been cleared
    ensures r.outcome == Faulted && r.model != m ==> r.model.installed.None? && !fx.uninstallOk
    ensures (&& m.package.id.Some? && m.installed.Some?
             && (SelectTarget(platform, m.installed.value).None? || fx.prepareOk)
             && (!fx.folderExists || fx.deleteOk) && !fx.uninstallOk) ==>
      r.outcome == Faulted && r.model.installed.None?
  {
    if m.package.id.None? || m.installed.None? then RemoveResult(m, Faulted)
    else if SelectTarget(platform, m.installed.value).Some? && !fx.prepareOk then RemoveResult(m, Faulted)
    else if fx.folderExists && !fx.deleteOk then RemoveResult(m, Returned(false))
    else
      var cleared := SetInstalledVersion(m, None);
      var hooked := if fx.uninstallStatus.Some? then cleared.(status := fx.uninstallStatus.value) else cleared;
      if !fx.uninstallOk then RemoveResult(hooked, Faulted)
      else RemoveResult(hooked, Returned(true))
  }

  /** Remove keeps the status invariant whenever the `Uninstall` hook leaves the status alone. */
  lemma RemovePreservesConsistency(m: PackageModel, platform: string, fx: RemoveEffects)
    requires StatusConsistent(m)
    ensures fx.uninstallStatus.None? ==> StatusConsistent(Remove(m, platform, fx).model)
  {
  }

  /**
   * When the removal clears the installed version and the `Uninstall` hook
   * assigns a status, the invariant holds exactly when that status is
   * `NeedRestart` or the one derived with nothing installed.
   */
  lemma RemoveHookDecides(m: PackageModel, platform: string, fx: RemoveEffects)
    requires Remove(m, platform, fx).model.installed.None? && m.installed.Some?
    requires fx.uninstallStatus.Some?
    ensures StatusConsistent(Remove(m, platform, fx).model)
        <==> fx.uninstallStatus.value == NeedRestart || fx.uninstallStatus.value == DeriveStatus(m.package, None)
  {
  }

  /**
   * Remove is not idempotent: once it has cleared the installed version, a
   * second call faults in the target lookup, whatever the folder state.
   */
  lemma RemoveTwiceFaults(m: PackageModel, platform: string, fx1: RemoveEffects, fx2: RemoveEffects)
    requires Remove(m, platform, fx1).outcome == Returned(true)
    ensures Remove(Remove(m, platform, fx1).model, platform, fx2).outcome == Faulted
  {
  }

  // ---------------------------------------------------------------------------
  // Update
  // ---------------------------------------------------------------------------

  /** The result of `CheckCompatibilityAsync`. */
  datatype CompatibilityReport = CompatibilityReport(isCompatible: bool, report: Option<string>)

  /** The base `CheckCompatibilityAsync`: every version is compatible. */
  function DefaultCheckCompatibility(version: PackageVersion): (c: CompatibilityReport)
    ensures c.isCompatible && c.report.None?
  {
    CompatibilityReport(true, None)
  }

  datatype UpdateResult = UpdateResult(model: PackageModel, outcome: Completion, fetched: Option<FetchRequest>)

  /**
   * `UpdateAsync(version)`, where `compat` is what the compatibility check
   * reported for `version`: an incompatible version changes nothing; a removal
   * that does not return true ends the update without any download; otherwise
   * the update returns what the download returns.
   */
  function Update(m: PackageModel, platform: string, version: PackageVersion, compat: CompatibilityReport,
                  rfx: RemoveEffects, dfx: DownloadEffects): (r: UpdateResult)
    ensures !compat.isCompatible ==> r == UpdateResult(m, Returned(false), None)
    ensures compat.isCompatible && Remove(m, platform, rfx).outcome != Returned(true) ==>
      r == UpdateResult(Remove(m, platform, rfx).model, Remove(m, platform, rfx).outcome, None)
    ensures compat.isCompatible && Remove(m, platform, rfx).outcome == Returned(true) ==>
      var d := Download(Remove(m, platform, rfx).model, platform, version, dfx);
      r == UpdateResult(d.model, Returned(d.ok), d.fetched)
    ensures r.outcome == Returned(true) ==> r.model.installed == Some(version)
  {
    if !compat.isCompatible then UpdateResult(m, Returned(false), None)
    else
      var removed := Remove(m, platform, rfx);
      if removed.outcome != Returned(true) then UpdateResult(removed.model, removed.outcome, None)
      else
        var d := Download(removed.model, platform, version, dfx);
        UpdateResult(d.model, Returned(d.ok), d.fetched)
  }

  /**
   * The two-phase update's risk window: when the removal succeeds and the
   * download then fails, the package ends up with nothing installed.
   */
  lemma UpdateCanUninstall(m: PackageModel, platform: string, version: PackageVersion, compat: CompatibilityReport,
                           rfx: RemoveEffects, dfx: DownloadEffects)
    requires compat.isCompatible
    requires Remove(m, platform, rfx).outcome == Returned(true)
    requires !Download(Remove(m, platform, rfx).model, platform, version, dfx).ok
    ensures Update(m, platform, version, compat, rfx, dfx).outcome == Returned(false)
    ensures Update(m, platform, version, compat, rfx, dfx).model.installed.None?
    ensures Update(m, platform, version, compat, rfx, dfx).model.status == Available
  {
  }
}

=== FILE: packages.dfy ===
/**
 * The package catalog records (`Package`, `PackageVersion`, `PackageTarget`),
 * the `PackageStatus` enumeration, and the two pure decisions the package model
 * makes over them: which status a package has, and which download target of a
 * version fits the host platform.
 */
module Packages {
  import opened Wrappers
  import opened Versions

  /** One per-platform download of a version. `target` is e.g. "win-x64" or "all". */
  datatype PackageTarget = PackageTarget(target: Option<string>, url: Option<string>)

  /** One catalog version: its version string and its download targets (either may be null). */
  datatype PackageVersion = PackageVersion(version: Option<string>, targets: Option<seq<PackageTarget>>)

  /**
   * A catalog entry, reduced to the fields the package model reads. `versions`
   * is newest-last by convention only.
   */
  datatype Package = Package(id: Option<string>, sourceUrl: Option<string>, versions: Option<seq<PackageVersion>>)

  datatype PackageStatus = Unavailable | Available | UpdateAvailable | Installed | Installing | NeedRestart

  // ---------------------------------------------------------------------------
  // Status derivation (UpdateStatus)
  // ---------------------------------------------------------------------------

  /** `Package.Versions?.LastOrDefault()?.Version`: the LAST listed version, not the greatest. */
  function LatestVersionString(p: Package): (r: Option<string>)
    ensures p.versions.None? || |p.versions.value| == 0 ==> r.None?
    ensures p.versions.Some? && |p.versions.value| > 0 ==> r == p.versions.value[|p.versions.value| - 1].version
  {
    match p.versions
    case None => None
    case Some(vs) => if |vs| == 0 then None else vs[|vs| - 1].version
  }

  /** The parsed latest catalog version, if it parses. */
  function Latest(p: Package): Option<Version> {
    TryParse(LatestVersionString(p))
  }

  /** The parsed installed version; a null installed version is parsed as "". */
  function InstalledParsed(installed: Option<PackageVersion>): Option<Version> {
    TryParse(Some(if installed.Some? then installed.value.version.GetOr("") else ""))
  }

  /**
   * The status recomputation rule with the sticky `NeedRestart` left aside:
   * newer latest version, else installed, else available, else unavailable.
   */
  function DeriveStatus(p: Package, installed: Option<PackageVersion>): (r: PackageStatus)
    ensures r == UpdateAvailable <==>
      Latest(p).Some? && InstalledParsed(installed).Some? && Greater(Latest(p).value, InstalledParsed(installed).value)
    ensures r == Installed <==>
      InstalledParsed(installed).Some? && !(Latest(p).Some? && Greater(Latest(p).value, InstalledParsed(installed).value))
    ensures r == Available <==> InstalledParsed(installed).None? && Latest(p).Some?
    ensures r == Unavailable <==> InstalledParsed(installed).None? && Latest(p).None?
  {
    var lv := Latest(p);
    var iv := InstalledParsed(installed);
    if lv.Some? && iv.Some? && Greater(lv.value, iv.value) then UpdateAvailable
    else if iv.Some? then Installed
    else if lv.Some? then Available
    else Unavailable
  }

  /** `UpdateStatus()`: `NeedRestart` is kept, any other status is replaced by the derived one. */
  function UpdateStatus(current: PackageStatus, p: Package, installed: Option<PackageVersion>): (r: PackageStatus)
    ensures current == NeedRestart ==> r == NeedRestart
    ensures current != NeedRestart ==> r == DeriveStatus(p, installed)
  {
    if current == NeedRestart then current else DeriveStatus(p, installed)
  }

  /** The derived status is never a transient or externally set one. */
  lemma DerivedIsSettled(p: Package, installed: Option<PackageVersion>)
    ensures DeriveStatus(p, installed) != Installing
    ensures DeriveStatus(p, installed) != NeedRestart
  {
  }

  /** Without an installed version the status only says whether the catalog has a parsable latest version. */
  lemma NotInstalledStatus(p: Package)
    ensures DeriveStatus(p, None) == (if Latest(p).Some? then Available else Unavailable)
  {
  }

  // ---------------------------------------------------------------------------
  // Platform target selection (SelectTarget)
  // ---------------------------------------------------------------------------

  /** `char.ToLower` on ASCII letters. */
  function LowerAscii(c: char): char {
    if 'A' <= c <= 'Z' then (c as int + 32) as char else c
  }

  /** `ToLower()` on the platform enum's name, which is plain ASCII. */
  function ToLowerAscii(s: string): (r: string)
    ensures |r| == |s|
    ensures forall i :: 0 <= i < |s| ==> r[i] == LowerAscii(s[i])
  {
    if |s| == 0 then "" else [LowerAscii(s[0])] + ToLowerAscii(s[1..])
  }

  /** `s.Replace("-", "")`. */
  function RemoveDashes(s: string): (r: string)
    ensures '-' !in r
    ensures |r| <= |s|
  {
    if |s| == 0 then ""
    else if s[0] == '-' then RemoveDashes(s[1..])
    else [s[0]] + RemoveDashes(s[1..])
  }

  /** A string without dashes is left as it is. */
  lemma {:induction false} RemoveDashesNoDash(s: string)
    requires '-' !in s
    ensures RemoveDashes(s) == s
  {
    if |s| > 0 {
      assert s[1..] == s[|s| - |s[1..]|..];
      RemoveDashesNoDash(s[1..]);
    }
  }

  /** `t` with its dashes skipped equals `p` lowered, compared one character at a time. */
  predicate DashlessEqualsLower(t: string, p: string)
    decreases |t|
  {
    if |t| == 0 then |p| == 0
    else if t[0] == '-' then DashlessEqualsLower(t[1..], p)
    else |p| > 0 && t[0] == LowerAscii(p[0]) && DashlessEqualsLower(t[1..], p[1..])
  }

  /** The character-wise comparison is exactly `t.Replace("-", "") == p.ToLower()`. */
  lemma {:induction false} DashlessEqualsLowerIff(t: string, p: string)
    ensures DashlessEqualsLower(t, p) <==> RemoveDashes(t) == ToLowerAscii(p)
    decreases |t|
  {
    if |t| > 0 {
      if t[0] == '-' {
        DashlessEqualsLowerIff(t[1..], p);
      } else if |p| == 0 {
        assert |RemoveDashes(t)| > 0;
      } else {
        DashlessEqualsLowerIff(t[1..], p[1..]);
        var r := RemoveDashes(t);
        assert r == [t[0]] + RemoveDashes(t[1..]);
        assert ToLowerAscii(p) == [LowerAscii(p[0])] + ToLowerAscii(p[1..]);
        if r == ToLowerAscii(p) {
          assert r[0] == LowerAscii(p[0]);
          assert r[1..] == RemoveDashes(t[1..]);
          assert ToLowerAscii(p)[1..] == ToLowerAscii(p[1..]);
        }
      }
    } else {
      assert |ToLowerAscii(p)| == |p|;
    }
  }

  /**
   * The target names the host: with its dashes removed it equals the lowered
   * platform name (see `MatchesPlatformMeaning`).
   */
  predicate MatchesPlatform(t: PackageTarget, platform: string) {
    t.target.Some? && DashlessEqualsLower(t.target.value, platform)
  }

  /** `x.Target?.Replace("-", "") == currentTarget` with `currentTarget` the lowered platform name. */
  lemma MatchesPlatformMeaning(t: PackageTarget, platform: string)
    ensures MatchesPlatform(t, platform) <==>
      t.target.Some? && RemoveDashes(t.target.value) == ToLowerAscii(platform)
  {
    if t.target.Some? {
      DashlessEqualsLowerIff(t.target.value, platform);
    }
  }

  /** The platform-agnostic target, spelled exactly "all". */
  predicate IsAllTarget(t: PackageTarget) {
    t.target == Some("all")
  }

  /** `FirstOrDefault` for "matches the host platform". */
  function FirstPlatformMatch(ts: seq<PackageTarget>, platform: string): (r: Option<nat>)
    ensures r.Some? ==> r.value < |ts| && MatchesPlatform(ts[r.value], platform)
    ensures r.Some? ==> forall j :: 0 <= j < r.value ==> !MatchesPlatform(ts[j], platform)
    ensures r.None? ==> forall j :: 0 <= j < |ts| ==> !MatchesPlatform(ts[j], platform)
  {
    if |ts| == 0 then None
    else if MatchesPlatform(ts[0], platform) then Some(0)
    else match FirstPlatformMatch(ts[1..], platform)
      case None => None
      case Some(k) => Some(k + 1)
  }

  /** `FirstOrDefault` for the "all" target. */
  function FirstAllTarget(ts: seq<PackageTarget>): (r: Option<nat>)
    ensures r.Some? ==> r.value < |ts| && IsAllTarget(ts[r.value])
    ensures r.Some? ==> forall j :: 0 <= j < r.value ==> !IsAllTarget(ts[j])
    ensures r.None? ==> forall j :: 0 <= j < |ts| ==> !IsAllTarget(ts[j])
  {
    if |ts| == 0 then None
    else if IsAllTarget(ts[0]) then Some(0)
    else match FirstAllTarget(ts[1..])
      case None => None
      case Some(k) => Some(k + 1)
  }

  /** `ts[i]` is the first target that fits the host platform. */
  predicate IsFirstPlatformMatch(ts: seq<PackageTarget>, i: int, platform: string) {
    && 0 <= i < |ts|
    && MatchesPlatform(ts[i], platform)
    && forall j :: 0 <= j < i ==> !MatchesPlatform(ts[j], platform)
  }

  /** `ts[i]` is the first "all" target. */
  predicate IsFirstAllTarget(ts: seq<PackageTarget>, i: int) {
    && 0 <= i < |ts|
    && IsAllTarget(ts[i])
    && forall j :: 0 <= j < i ==> !IsAllTarget(ts[j])
  }

  predicate NoPlatformMatch(ts: seq<PackageTarget>, platform: string) {
    forall j :: 0 <= j < |ts| ==> !MatchesPlatform(ts[j], platform)
  }

  predicate NoAllTarget(ts: seq<PackageTarget>) {
    forall j :: 0 <= j < |ts| ==> !IsAllTarget(ts[j])
  }

  /**
   * `SelectTarget(version)` on the host platform named `platform`: the first
   * target matching the platform, else the first "all" target, else none.
   */
  function SelectTarget(platform: string, version: PackageVersion): (r: Option<PackageTarget>)
    ensures r.Some? ==> version.targets.Some? && exists i ::
      && (IsFirstPlatformMatch(version.targets.value, i, platform)
          || (NoPlatformMatch(version.targets.value, platform) && IsFirstAllTarget(version.targets.value, i)))
      && r.value == version.targets.value[i]
    ensures r.None? ==>
      || version.targets.None?
      || (NoPlatformMatch(version.targets.value, platform) && NoAllTarget(version.targets.value))
  {
    match version.targets
    case None => None
    case Some(ts) =>
      match FirstPlatformMatch(ts, platform)
      case Some(i) => Some(ts[i])
      case None =>
        match FirstAllTarget(ts)
        case Some(i) => Some(ts[i])
        case None => None
  }

  /** The first target fitting the host is the one selected. */
  lemma SelectsFirstMatch(platform: string, version: PackageVersion, i: int)
    requires version.targets.Some? && IsFirstPlatformMatch(version.targets.value, i, platform)
    ensures SelectTarget(platform, version) == Some(version.targets.value[i])
  {
  }

  /** Without a target fitting the host, the first "all" target is selected. */
  lemma SelectsFirstAll(platform: string, version: PackageVersion, i: int)
    requires version.targets.Some? && NoPlatformMatch(version.targets.value, platform)
    requires IsFirstAllTarget(version.targets.value, i)
    ensures SelectTarget(platform, version) == Some(version.targets.value[i])
  {
  }

  /** Whatever is selected is one of the version's own targets, and fits the host or is "all". */
  lemma SelectedTargetBelongs(platform: string, version: PackageVersion)
    requires SelectTarget(platform, version).Some?
    ensures version.targets.Some?
    ensures SelectTarget(platform, version).value in version.targets.value
    ensures MatchesPlatform(SelectTarget(platform, version).value, platform)
         || IsAllTarget(SelectTarget(platform, version).value)
  {
  }

  // ---------------------------------------------------------------------------
  // Download URL
  // ---------------------------------------------------------------------------

  /** A C# interpolation hole: a null string is written as nothing. */
  function Text(s: Option<string>): string {
    s.GetOr("")
  }

  /** The conventional archive location: `{SourceUrl}/{Version}/{Id}_{Version}_{Target}.zip`. */
  function ConventionUrl(p: Package, version: PackageVersion, t: PackageTarget): (url: string)
    ensures |url| >= 4 && url[|url| - 4..] == ".zip"
  {
    var v := Text(version.version);
    Text(p.sourceUrl) + "/" + v + "/" + Text(p.id) + "_" + v + "_" + Text(t.target) + ".zip"
  }

  /** The archive that is fetched for a target: its own URL, or the conventional one when it has none. */
  function ZipUrl(p: Package, version: PackageVersion, t: PackageTarget): (url: string)
    ensures t.url.Some? ==> url == t.url.value
    ensures t.url.None? ==> url == ConventionUrl(p, version, t)
  {
    t.url.GetOr(ConventionUrl(p, version, t))
  }
}

=== FILE: versions.dfy ===
/**
 * A model of .NET's `System.Version`: the four-component version number that
 * the package model uses to decide whether a newer catalog version exists.
 * Only `TryParse`, `ToString` and the ordering are modelled.
 */
module Versions {
  import opened Wrappers

  /** Largest value of a C# `int`; a component above it does not parse. */
  const Int32Max: int := 2147483647

  /**
   * A version number. An undefined build or revision is stored as -1, exactly
   * as `System.Version` does, and that -1 takes part in comparisons.
   */
  datatype Version = Version(major: int, minor: int, build: int, revision: int)
  {
    /** The shape `System.Version` guarantees for every instance. */
    predicate Valid() {
      && 0 <= major <= Int32Max
      && 0 <= minor <= Int32Max
      && -1 <= build <= Int32Max
      && -1 <= revision <= Int32Max
      && (build == -1 ==> revision == -1)
    }
  }

  // ---------------------------------------------------------------------------
  // Decimal digits
  // ---------------------------------------------------------------------------

  predicate IsDigit(c: char) {
    '0' <= c <= '9'
  }

  predicate AllDigits(s: string) {
    forall i :: 0 <= i < |s| ==> IsDigit(s[i])
  }

  function DigitValue(c: char): (d: int)
    requires IsDigit(c)
    ensures 0 <= d <= 9
  {
    c as int - '0' as int
  }

  function DigitChar(d: int): (c: char)
    requires 0 <= d <= 9
    ensures IsDigit(c) && DigitValue(c) == d
  {
    ('0' as int + d) as char
  }

  /** The value of the digit string `s` read on after digits already worth `acc`. */
  function DigitsValueFrom(acc: nat, s: string): nat
    requires AllDigits(s)
    decreases |s|
  {
    if |s| == 0 then acc else DigitsValueFrom(acc * 10 + DigitValue(s[0]), s[1..])
  }

  /** The value of a decimal digit string, most significant digit first. */
  function DigitsValue(s: string): nat
    requires AllDigits(s)
  {
    DigitsValueFrom(0, s)
  }

  /** One more digit at the end multiplies the value read so far by ten. */
  lemma {:induction false} DigitsValueSnoc(acc: nat, s: string, c: char)
    requires AllDigits(s) && IsDigit(c)
    ensures DigitsValueFrom(acc, s + [c]) == DigitsValueFrom(acc, s) * 10 + DigitValue(c)
    decreases |s|
  {
    if |s| == 0 {
      assert s + [c] == [c];
      assert [c][1..] == [];
    } else {
      assert (s + [c])[1..] == s[1..] + [c];
      DigitsValueSnoc(acc * 10 + DigitValue(s[0]), s[1..], c);
    }
  }

  /** The shortest decimal spelling of `n`, as `int.ToString()` writes it. */
  function Decimal(n: nat): (s: string)
    ensures |s| >= 1 && AllDigits(s)
    ensures '.' !in s
  {
    if n < 10 then [DigitChar(n)]
    else Decimal(n / 10) + [DigitChar(n % 10)]
  }

  /** Reading back what `Decimal` wrote gives the number again. */
  lemma {:induction false} DecimalRoundTrip(n: nat)
    ensures DigitsValue(Decimal(n)) == n
  {
    if n >= 10 {
      assert Decimal(n) == Decimal(n / 10) + [DigitChar(n % 10)];
      DecimalRoundTrip(n / 10);
      DigitsValueSnoc(0, Decimal(n / 10), DigitChar(n % 10));
    } else {
      var s := Decimal(n);
      assert s == [DigitChar(n)] && s[1..] == [];
      assert DigitsValueFrom(0, s) == DigitsValueFrom(DigitValue(s[0]), s[1..]);
    }
  }

  // ---------------------------------------------------------------------------
  // One component: int.TryParse(component, NumberStyles.Integer, InvariantCulture)
  // ---------------------------------------------------------------------------

  /** The white-space characters `NumberStyles.AllowLeadingWhite` skips: U+0009..U+000D and U+0020. */
  predicate IsNumberWhite(c: char) {
    c == ' ' || ('\t' <= c <= '\r')
  }

  /** `s` without its leading number white space. */
  function DropWhite(s: string): (r: string)
    ensures |r| <= |s|
    ensures |r| > 0 ==> !IsNumberWhite(r[0])
  {
    if |s| > 0 && IsNumberWhite(s[0]) then DropWhite(s[1..]) else s
  }

  predicate AllNul(s: string) {
    |s| == 0 || (s[0] == '\0' && AllNul(s[1..]))
  }

  /** What may follow the digits: white space, then only NUL characters. */
  predicate IsTrailer(s: string) {
    || |s| == 0
    || (IsNumberWhite(s[0]) && IsTrailer(s[1..]))
    || (s[0] == '\0' && AllNul(s[1..]))
  }

  /** Digits read on after digits worth `acc`, up to the first non-digit, which must start a trailer. */
  function ScanDigits(acc: nat, s: string): (r: Option<nat>)
    decreases |s|
  {
    if |s| == 0 then Some(acc)
    else if IsDigit(s[0]) then ScanDigits(acc * 10 + DigitValue(s[0]), s[1..])
    else if IsTrailer(s) then Some(acc)
    else None
  }

  /** At least one digit, then a trailer. */
  function ParseUnsigned(u: string): Option<nat> {
    if |u| == 0 || !IsDigit(u[0]) then None else ScanDigits(0, u)
  }

  /**
   * One version component, parsed as a C# `int` that must not be negative:
   * optional white space, an optional `+` or `-`, at least one ASCII digit,
   * then optional white space and NULs. A `-` sign only survives on zero.
   */
  function ParseComponent(c: string): (r: Option<int>)
    ensures r.Some? ==> 0 <= r.value <= Int32Max
  {
    var body := DropWhite(c);
    if |body| > 0 && body[0] == '-' then
      (if ParseUnsigned(body[1..]) == Some(0) then Some(0) else None)
    else
      var v := if |body| > 0 && body[0] == '+' then ParseUnsigned(body[1..]) else ParseUnsigned(body);
      if v.Some? && v.value <= Int32Max then Some(v.value) else None
  }

  lemma {:induction false} ScanAllDigits(acc: nat, s: string)
    requires AllDigits(s)
    ensures ScanDigits(acc, s) == Some(DigitsValueFrom(acc, s))
    decreases |s|
  {
    if |s| > 0 {
      ScanAllDigits(acc * 10 + DigitValue(s[0]), s[1..]);
    }
  }

  /** Digits worth `acc` so far, read on over a digit run `s` and then a trailer `t`, give the run's value. */
  lemma {:induction false} ScanThenTrailer(acc: nat, s: string, t: string)
    requires AllDigits(s) && IsTrailer(t) && (|t| == 0 || !IsDigit(t[0]))
    ensures ScanDigits(acc, s + t) == Some(DigitsValueFrom(acc, s))
    decreases |s|
  {
    if |s| == 0 {
      assert s + t == t;
    } else {
      assert (s + t)[0] == s[0] && (s + t)[1..] == s[1..] + t;
      ScanThenTrailer(acc * 10 + DigitValue(s[0]), s[1..], t);
    }
  }

  /** A digit run followed by a trailer of white space or NULs parses like the run alone. */
  lemma DigitsWithTrailer(s: string, t: string)
    requires |s| >= 1 && AllDigits(s) && IsTrailer(t) && (|t| == 0 || !IsDigit(t[0]))
    ensures ParseComponent(s + t) == (if DigitsValue(s) <= Int32Max then Some(DigitsValue(s)) else None)
    ensures ParseUnsigned(s + t) == Some(DigitsValue(s))
  {
    ScanThenTrailer(0, s, t);
    assert (s + t)[0] == s[0];
    assert DropWhite(s + t) == s + t;
  }

  /** A leading blank before a component that starts with a digit changes nothing. */
  lemma BlankPrefix(u: string)
    requires |u| > 0 && IsDigit(u[0])
    ensures ParseComponent(" " + u) == ParseComponent(u)
  {
    assert (" " + u)[1..] == u;
    assert DropWhite(u) == u;
  }

  /** A `+` before a component that starts with a digit changes nothing. */
  lemma PlusPrefix(u: string)
    requires |u| > 0 && IsDigit(u[0])
    ensures ParseComponent("+" + u) == ParseComponent(u)
  {
    assert ("+" + u)[1..] == u;
    assert DropWhite("+" + u) == "+" + u;
    assert DropWhite(u) == u;
  }

  /** A `-` before a component is accepted only when the rest reads as zero. */
  lemma MinusPrefix(u: string)
    ensures ParseComponent("-" + u) == (if ParseUnsigned(u) == Some(0) then Some(0) else None)
  {
    assert ("-" + u)[1..] == u;
    assert DropWhite("-" + u) == "-" + u;
  }

  /**
   * The accepted syntax around a digit run `s`: a leading blank and a `+`
   * change nothing, any trailer of white space or NULs is ignored, the value
   * must fit in an `int`, and a `-` is accepted only on zero.
   */
  lemma PaddedDigits(s: string, t: string)
    requires |s| >= 1 && AllDigits(s) && IsTrailer(t) && (|t| == 0 || !IsDigit(t[0]))
    ensures ParseComponent(s + t) == (if DigitsValue(s) <= Int32Max then Some(DigitsValue(s)) else None)
    ensures ParseComponent(" " + (s + t)) == ParseComponent(s + t)
    ensures ParseComponent("+" + (s + t)) == ParseComponent(s + t)
    ensures ParseComponent("-" + (s + t)) == (if DigitsValue(s) == 0 then Some(0) else None)
  {
    DigitsWithTrailer(s, t);
    assert (s + t)[0] == s[0];
    BlankPrefix(s + t);
    PlusPrefix(s + t);
    MinusPrefix(s + t);
  }

  /** A plain run of digits parses to its value, leading zeros included. */
  lemma DigitsParse(s: string)
    requires |s| >= 1 && AllDigits(s) && DigitsValue(s) <= Int32Max
    ensures ParseComponent(s) == Some(DigitsValue(s))
  {
    assert DropWhite(s) == s;
    ScanAllDigits(0, s);
  }

  /** A canonical decimal spelling parses back to its number. */
  lemma DecimalParses(n: nat)
    requires n <= Int32Max
    ensures ParseComponent(Decimal(n)) == Some(n)
  {
    DecimalRoundTrip(n);
    DigitsParse(Decimal(n));
  }

  // ---------------------------------------------------------------------------
  // Splitting on '.'
  // ---------------------------------------------------------------------------

  /** The pieces of `s` between dots; a string with `k` dots has `k + 1` pieces. */
  function SplitOnDot(s: string): (parts: seq<string>)
    ensures |parts| >= 1
    ensures forall i :: 0 <= i < |parts| ==> '.' !in parts[i]
  {
    if |s| == 0 then [""]
    else
      var rest := SplitOnDot(s[1..]);
      if s[0] == '.' then [""] + rest
      else [[s[0]] + rest[0]] + rest[1..]
  }

  lemma {:induction false} SplitNoDot(a: string)
    requires '.' !in a
    ensures SplitOnDot(a) == [a]
  {
    if |a| > 0 {
      SplitNoDot(a[1..]);
      assert [a[0]] + a[1..] == a;
    }
  }

  lemma {:induction false} SplitDotted(a: string, rest: string)
    requires '.' !in a
    ensures SplitOnDot(a + "." + rest) == [a] + SplitOnDot(rest)
  {
    if |a| == 0 {
      assert a + "." + rest == "." + rest;
      assert ("." + rest)[1..] == rest;
    } else {
      var s := a + "." + rest;
      assert s[1..] == a[1..] + "." + rest;
      SplitDotted(a[1..], rest);
      assert [a[0]] + a[1..] == a;
    }
  }

  // ---------------------------------------------------------------------------
  // Version.TryParse and Version.ToString
  // ---------------------------------------------------------------------------

  /**
   * `Version.TryParse(input, out v)`: `None` for a null input, for fewer than
   * two or more than four components, or for a component that is not a
   * non-negative `int`.
   */
  function TryParse(input: Option<string>): (r: Option<Version>)
    ensures r.Some? ==> r.value.Valid()
    ensures r.Some? ==> input.Some? && 2 <= |SplitOnDot(input.value)| <= 4
    // a success reads its components from the pieces, undefined ones as -1
    ensures r.Some? ==>
      && input.Some?
      && var parts := SplitOnDot(input.value);
         && ParseComponent(parts[0]) == Some(r.value.major)
         && ParseComponent(parts[1]) == Some(r.value.minor)
         && (if |parts| >= 3 then ParseComponent(parts[2]) == Some(r.value.build) else r.value.build == -1)
         && (if |parts| == 4 then ParseComponent(parts[3]) == Some(r.value.revision) else r.value.revision == -1)
    // a piece that is not a non-negative `int` makes the whole parse fail
    ensures (&& input.Some?
             && (exists i :: 0 <= i < |SplitOnDot(input.value)| && ParseComponent(SplitOnDot(input.value)[i]).None?)) ==>
      r.None?
  {
    match input
    case None => None
    case Some(s) =>
      var parts := SplitOnDot(s);
      if |parts| < 2 || |parts| > 4 then None
      else
        var major := ParseComponent(parts[0]);
        var minor := ParseComponent(parts[1]);
        var build := if |parts| >= 3 then ParseComponent(parts[2]) else Some(-1);
        var revision := if |parts| == 4 then ParseComponent(parts[3]) else Some(-1);
        if major.None? || minor.None? || build.None? || revision.None? then None
        else Some(Version(major.value, minor.value, build.value, revision.value))
  }

  /** `Version.ToString()`: two, three or four components, as many as are defined. */
  function Format(v: Version): (s: string)
    requires v.Valid()
  {
    Decimal(v.major) + "." + Decimal(v.minor)
    + (if v.build == -1 then ""
       else "." + Decimal(v.build) + (if v.revision == -1 then "" else "." + Decimal(v.revision)))
  }

  /** Every version survives `ToString` followed by `TryParse`. */
  lemma FormatThenParse(v: Version)
    requires v.Valid()
    ensures TryParse(Some(Format(v))) == Some(v)
  {
    var s := Format(v);
    var parts := SplitOnDot(s);
    FormatSplits(v);
    var a, b, c, d := Decimal(v.major), Decimal(v.minor), Decimal(if v.build < 0 then 0 else v.build), Decimal(if v.revision < 0 then 0 else v.revision);
    assert parts[0] == a && parts[1] == b;
    assert v.build != -1 ==> parts[2] == c;
    assert v.revision != -1 ==> parts[3] == d;
    DecimalParses(v.major);
    DecimalParses(v.minor);
    if v.build != -1 {
      DecimalParses(v.build);
    }
    if v.revision != -1 {
      DecimalParses(v.revision);
    }
    PiecesParse(s, parts, v);
  }

  /** `TryParse` succeeds with `v` once each piece parses to its component. */
  lemma PiecesParse(s: string, parts: seq<string>, v: Version)
    requires parts == SplitOnDot(s)
    requires v.Valid()
    requires |parts| == (if v.build == -1 then 2 else if v.revision == -1 then 3 else 4)
    requires ParseComponent(parts[0]) == Some(v.major)
    requires ParseComponent(parts[1]) == Some(v.minor)
    requires |parts| >= 3 ==> ParseComponent(parts[2]) == Some(v.build)
    requires |parts| == 4 ==> ParseComponent(parts[3]) == Some(v.revision)
    ensures TryParse(Some(s)) == Some(v)
  {
  }

  /** `ToString` writes one dot-free piece per defined component. */
  lemma FormatSplits(v: Version)
    requires v.Valid()
    ensures SplitOnDot(Format(v)) ==
      [Decimal(v.major), Decimal(v.minor)]
      + (if v.build == -1 then [] else [Decimal(v.build)])
      + (if v.revision == -1 then [] else [Decimal(v.revision)])
  {
    var a, b := Decimal(v.major), Decimal(v.minor);
    if v.build == -1 {
      SplitTwo(Format(v), a, b);
    } else if v.revision == -1 {
      SplitThree(Format(v), a, b, Decimal(v.build));
    } else {
      var c, d := Decimal(v.build), Decimal(v.revision);
      assert Format(v) == a + "." + b + ("." + c + "." + d);
      SplitFour(Format(v), a, b, c, d);
    }
  }

  /** Two dot-free pieces joined by a dot split back into those pieces. */
  lemma SplitTwo(s: string, a: string, b: string)
    requires s == a + "." + b
    requires '.' !in a && '.' !in b
    ensures SplitOnDot(s) == [a, b]
  {
    SplitNoDot(b);
    SplitDotted(a, b);
  }

  /** Four dot-free pieces joined by dots split back into those pieces. */
  lemma SplitFour(s: string, a: string, b: string, c: string, d: string)
    requires s == a + "." + b + ("." + c + "." + d)
    requires '.' !in a && '.' !in b && '.' !in c && '.' !in d
    ensures SplitOnDot(s) == [a, b, c, d]
  {
    assert s == a + "." + (b + "." + (c + "." + d));
    SplitNoDot(d);
    SplitDotted(c, d);
    SplitDotted(b, c + "." + d);
    SplitDotted(a, b + "." + (c + "." + d));
  }

  /** Three dot-free pieces joined by dots split back into those pieces. */
  lemma SplitThree(s: string, a: string, b: string, c: string)
    requires s == a + "." + b + "." + c
    requires '.' !in a && '.' !in b && '.' !in c
    ensures SplitOnDot(s) == [a, b, c]
  {
    assert s == a + "." + (b + "." + c);
    SplitNoDot(c);
    SplitDotted(b, c);
    SplitDotted(a, b + "." + c);
  }

  /** Three digit runs joined by dots parse as a three-component version. */
  lemma ThreeRunsParse(s: string, a: string, b: string, c: string)
    requires s == a + "." + b + "." + c
    requires |a| >= 1 && AllDigits(a) && DigitsValue(a) <= Int32Max
    requires |b| >= 1 && AllDigits(b) && DigitsValue(b) <= Int32Max
    requires |c| >= 1 && AllDigits(c) && DigitsValue(c) <= Int32Max
    ensures TryParse(Some(s)) == Some(Version(DigitsValue(a), DigitsValue(b), DigitsValue(c), -1))
  {
    SplitThree(s, a, b, c);
    DigitsParse(a);
    DigitsParse(b);
    DigitsParse(c);
    var parts := SplitOnDot(s);
    assert parts[0] == a && parts[1] == b && parts[2] == c;
    PiecesParse(s, parts, Version(DigitsValue(a), DigitsValue(b), DigitsValue(c), -1));
  }

  /** A string without a dot, the empty string included, is never a version. */
  lemma NoDotNoVersion(s: string)
    requires '.' !in s
    ensures TryParse(Some(s)).None?
  {
    SplitNoDot(s);
  }

  // ---------------------------------------------------------------------------
  // Ordering: Version.CompareTo and the > operator
  // ---------------------------------------------------------------------------

  /** `Version.CompareTo`: major, minor, build, revision in turn; -1, 0 or 1. */
  function CompareTo(a: Version, b: Version): (r: int)
    ensures r == 0 <==> a == b
    ensures r == -1 || r == 0 || r == 1
  {
    if a.major != b.major then (if a.major > b.major then 1 else -1)
    else if a.minor != b.minor then (if a.minor > b.minor then 1 else -1)
    else if a.build != b.build then (if a.build > b.build then 1 else -1)
    else if a.revision != b.revision then (if a.revision > b.revision then 1 else -1)
    else 0
  }

  /** `a > b` on two non-null versions. */
  predicate Greater(a: Version, b: Version) {
    CompareTo(a, b) > 0
  }

  lemma CompareAntisymmetric(a: Version, b: Version)
    ensures CompareTo(a, b) == -CompareTo(b, a)
  {
  }

  lemma GreaterIrreflexive(a: Version)
    ensures !Greater(a, a)
  {
  }

  lemma GreaterTransitive(a: Version, b: Version, c: Version)
    requires Greater(a, b) && Greater(b, c)
    ensures Greater(a, c)
  {
  }

  lemma GreaterTrichotomy(a: Version, b: Version)
    ensures Greater(a, b) || Greater(b, a) || a == b
  {
  }
}

=== FILE: wrappers.dfy ===
/** The nullable references of the modelled C# code, as an option type. */
module Wrappers {

  /** `None` stands for a C# `null`; `Some(v)` for a non-null reference to `v`. */
  datatype Option<+T> = None | Some(value: T) {

    /** The wrapped value, or `default` for `None` (the C# `??` operator). */
    function GetOr(default: T): (r: T)
      ensures Some? ==> r == value
      ensures None? ==> r == default
    {
      match this
      case Some(v) => v
      case None => default
    }
  }
}
